=== FILE: README.md ===
# Airspan catalog configurator — a Dafny model

The Airspan catalog configurator is a Streamlit script. It reads the
"Catalog" sheet and unpivots it into one row per (item, product family).
The user then picks a product family and is walked through the thirteen
product categories in a fixed order: Base Station, Software, ACP, Antenna,
Cable, Connector/Splitter/Adapter, Filter, Mounting Kit, Multi-Accessory,
Power Supply, Timing, Extended Warranty and ASPlus. A final stage offers the
optional/spare items. Everything chosen is collected into a final table,
duplicates are removed, and each row gets an extended price (US list price ×
quantity). The table also shows a grand total.

This project models that selection-and-pricing pipeline as pure functions
over immutable records. Every interaction with the user becomes an explicit
input (`Configurator.Choices`):

- the chosen family;
- the spectrum picked when several are offered;
- the descriptions picked in each multiselect;
- the node count;
- the spare rows picked;
- the quantity edits made in the final table.

Modules follow the script's structure:

- `Cells`: spreadsheet cells. A blank cell (pandas NaN) is `None`. A price cell is a number, text or blank, with numeric coercion.
- `Seqs`: the table operations. These are boolean-mask filtering, subsequences, and duplicate removal that keeps first occurrences.
- `Catalog`: the sheet row and the unpivoted item. It also holds the unpivot, the default view of a family (its 13 categories, ordered by category rank) and the optional/spare view.
- `Selection`: the "auto-select or multiselect" primitive and base-station spectrum narrowing. It also holds the CBRS gate and the two gate policies: additive for Software and ACP, exclusive for ASPlus.
- `Pricing`: quantity stamping, the accumulated step results, the de-duplicated final selection, positional quantity edits, extended prices and the total.
- `Configurator`: the walkthrough of all steps, and the derivation of the order from the sheet and the choices.
- `Scenarios`: two worked configurations. One is a lone n48 base station that opens the gate and restricts ASPlus to its CBRS variant. The other is a Software category under an open gate.

A blank cell compares the way pandas compares NaN:

- `== 1` is false on a blank cell;
- `!= 1` is true on a blank cell;
- a spectrum filter never matches a blank spectrum, even when the blank is the only spectrum on offer.

Points where the script's behaviour is easy to misread:

- The default view does not test the Active column. The spare view does, and it keeps categories outside the thirteen; the categorical conversion turns those tags into missing values, which sort last.
- With nothing chosen, the script reports "no items" and shows no total. This is `Order.NoItems`; it does not carry a total of 0.
- Duplicate removal compares whole rows, the stamped quantity included.
- Each run re-derives everything from the current answers, as the script does on every interaction.

## Model

| member | source | states |
|---|---|---|
| Cells.ToNumeric | AirspanCatalog/Airspan_Catalog.py:524-525 | a price cell coerces to a number exactly when it holds a number, keeping its value; anything else becomes missing |
| Seqs.Dedup | AirspanCatalog/Airspan_Catalog.py:221 | duplicate removal leaves no repeated row, keeps exactly the rows of its input, and keeps them in input order |
| Seqs.DedupFromKeeps | AirspanCatalog/Airspan_Catalog.py:522 | duplicate removal past a set of rows already seen keeps each unseen row once, and in input order |
| Seqs.DedupFromSnoc | AirspanCatalog/Airspan_Catalog.py:522 | with rows already seen, appending a row adds it exactly when it is neither earlier in the input nor already seen |
| Seqs.DedupSnoc | AirspanCatalog/Airspan_Catalog.py:522 | appending a row to the input adds it to the output exactly when it had not occurred before, so the first occurrence is the one kept |
| Seqs.DedupOfDistinct | AirspanCatalog/Airspan_Catalog.py:522 | an input without duplicates comes back unchanged |
| Seqs.DedupIdempotent | AirspanCatalog/Airspan_Catalog.py:522 | removing duplicates a second time changes nothing, for every input |
| Seqs.Filter | AirspanCatalog/Airspan_Catalog.py:55 | boolean-mask filtering keeps exactly the rows that pass the mask, each as often as in the input |
| Seqs.FilterIsSubseq | AirspanCatalog/Airspan_Catalog.py:55 | the rows a mask keeps stay in input order |
| Seqs.DistinctSameMembers | AirspanCatalog/Airspan_Catalog.py:522 | two duplicate-free tables with the same rows are permutations of each other |
| Catalog.MeltColumns | AirspanCatalog/Airspan_Catalog.py:45-50 | the unpivot has one row per (family column, sheet row), and each row's family is one of the family columns |
| Catalog.MeltHasCopy | AirspanCatalog/Airspan_Catalog.py:45-50 | every sheet row has a copy in the unpivot for every family column |
| Catalog.MeltCopyOf | AirspanCatalog/Airspan_Catalog.py:45-50 | every unpivoted row is the copy of some sheet row for its own family |
| Catalog.Indicated | AirspanCatalog/Airspan_Catalog.py:55 | the family table holds exactly the unpivoted rows whose indicator is 1, each as often as in the unpivot |
| Catalog.Rank | AirspanCatalog/Airspan_Catalog.py:96-114 | a tag ranks inside the thirteen categories exactly when it is one of them, and then its rank is its position in the category order; any other tag ranks after all of them |
| Catalog.IndexOf | AirspanCatalog/Airspan_Catalog.py:96-114 | the position of a tag in the category order, which is the length of the order exactly when the tag is not in it |
| Catalog.Buckets | AirspanCatalog/Airspan_Catalog.py:115 | collecting the rows of rank k and above, category by category, yields exactly those rows, ordered by category rank |
| Catalog.SortByTag | AirspanCatalog/Airspan_Catalog.py:115 | sorting by category yields a table ordered by category rank that is a permutation of its input |
| Catalog.DefaultRows | AirspanCatalog/Airspan_Catalog.py:90-115 | the default view holds exactly the unpivoted rows with indicator 1, the family, configuration "Default" and a known category, each as often as in the unpivot, ordered by category rank |
| Catalog.DefaultRowsOfSheet | AirspanCatalog/Airspan_Catalog.py:45-115 | a sheet row appears in the default view of a listed family exactly when the sheet marks it for that family, it is a "Default" row and its category is one of the thirteen |
| Catalog.DefaultRowsOfUnknownFamily | AirspanCatalog/Airspan_Catalog.py:45-93 | a family without an indicator column has an empty default view |
| Catalog.Retag | AirspanCatalog/Airspan_Catalog.py:493 | after the categorical conversion a tag is either missing or one of the thirteen, known tags are kept, a tag outside the thirteen becomes missing, and no other column changes |
| Catalog.RetagAll | AirspanCatalog/Airspan_Catalog.py:493 | the conversion maps row for row, and every converted row comes from a row of the input |
| Catalog.SpareCandidates | AirspanCatalog/Airspan_Catalog.py:487-491 | the spare rows are exactly the unpivoted rows with indicator 1, the family, Active 1 and configuration "Optional/Spare", whatever their category, each as often as in the unpivot |
| Catalog.SpareRows | AirspanCatalog/Airspan_Catalog.py:487-494 | the spare list is a permutation of the spare rows of the unpivot with their tags converted, each row as often as in the unpivot (so its length bounds the positions the user can pick), and is ordered by category rank with missing tags last |
| Selection.ByTag | AirspanCatalog/Airspan_Catalog.py:151 | a category's rows are exactly the rows with that tag, in table order, each as often as in the table |
| Selection.OneDescriptionIff | AirspanCatalog/Airspan_Catalog.py:132-133 | exactly one distinct description means the rows are non-empty and all share the first row's description |
| Selection.AutoSelect | AirspanCatalog/Airspan_Catalog.py:123-140 | the choice is a subsequence of the candidates: empty when they are empty, all of them when they share one description, otherwise exactly the rows whose description was picked |
| Selection.AutoSelectPicks | AirspanCatalog/Airspan_Catalog.py:137-140 | with several descriptions on offer, a row is chosen if and only if it is a candidate whose description was picked |
| Selection.OfSpectrum | AirspanCatalog/Airspan_Catalog.py:159-162 | the spectrum mask keeps exactly the rows whose spectrum cell is non-blank and equal to the one given, each as often as in the input and in input order |
| Selection.NarrowSpectrum | AirspanCatalog/Airspan_Catalog.py:154-162 | the narrowed base stations are exactly the candidates whose non-blank spectrum equals the chosen one, each as often as among the candidates and in candidate order. That spectrum is the only one on offer, else the user's pick. In the single-spectrum case the narrowed list is every base station |
| Selection.OneSpectrumChosen | AirspanCatalog/Airspan_Catalog.py:155-159 | when the base stations offer one spectrum and it is not blank, every base station has the spectrum taken |
| Selection.Lower | AirspanCatalog/Airspan_Catalog.py:186 | lowercasing keeps the length, leaves no capital A-Z, keeps every other character, and moves each capital 32 code points up |
| Selection.LowerIdempotent | AirspanCatalog/Airspan_Catalog.py:186 | lowercasing twice is lowercasing once |
| Selection.CbrsBandSpellings | AirspanCatalog/Airspan_Catalog.py:186-187 | a spectrum lowercases to b48 or n48 exactly when it is spelled b48, B48, n48 or N48 |
| Selection.CbrsGate | AirspanCatalog/Airspan_Catalog.py:185-188 | the gate is open exactly when some chosen base station's lowercased spectrum is b48 or n48, and it is closed when none is chosen |
| Selection.ChooseBaseStations | AirspanCatalog/Airspan_Catalog.py:151-188 | the base stations chosen are exactly the auto-select-or-pick choice among the rows of the chosen spectrum, and all have that spectrum. The quantity is the node count when some are chosen, else 1; it is always at least 1. The gate is open exactly when a chosen one is a CBRS band |
| Selection.NormalRows | AirspanCatalog/Airspan_Catalog.py:198 | the normal part is exactly the rows whose CBRS-only flag is not 1, blank included |
| Selection.CbrsRows | AirspanCatalog/Airspan_Catalog.py:200 | the CBRS part is exactly the rows whose CBRS-only flag is 1 |
| Selection.PartitionCovers | AirspanCatalog/Airspan_Catalog.py:198-200 | the two parts are disjoint and together hold every row of the category, duplicates included |
| Selection.AdditiveChoice | AirspanCatalog/Airspan_Catalog.py:194-226 | a row is chosen if and only if it was chosen among the normal rows or the gate is open and it is CBRS-only. There are no duplicates; with the gate closed no CBRS-only row appears, and with it open every one does |
| Selection.AdditiveIsDedupOfUnion | AirspanCatalog/Airspan_Catalog.py:203-221 | the additive choice is the normal rows chosen, followed by the CBRS-only rows when the gate is open, with duplicates removed |
| Selection.AdditiveKeepsNormalPicks | AirspanCatalog/Airspan_Catalog.py:203-221 | the normal rows in the result are exactly the ones chosen among the normal rows, gate open or closed |
| Selection.ExclusiveChoice | AirspanCatalog/Airspan_Catalog.py:445-479 | the gate decides the part offered: the CBRS part when open, the normal part otherwise. A chosen row is CBRS-only exactly when the gate is open. A part with one description is taken whole; otherwise exactly the offered rows whose description was picked are chosen, each as often as offered |
| Pricing.Stamp | AirspanCatalog/Airspan_Catalog.py:182 | every chosen row is kept in order with the given quantity, and a line is stamped exactly when its row was chosen and it carries that quantity |
| Pricing.ConcatSnoc | AirspanCatalog/Airspan_Catalog.py:522 | the accumulation stacks the steps in step order: a later step's rows come after all earlier rows, each as often as in that step |
| Pricing.Concat | AirspanCatalog/Airspan_Catalog.py:522 | the accumulated rows are exactly those of some step, and they are empty exactly when every step is empty; the step order is fixed by Pricing.ConcatSnoc |
| Pricing.FinalSelection | AirspanCatalog/Airspan_Catalog.py:522 | the final selection has no duplicates, holds exactly the rows of some step, and keeps accumulation order |
| Pricing.Price | AirspanCatalog/Airspan_Catalog.py:525-550 | a priced row keeps its row and quantity, and its unit price is the coerced US list price. Its extended price is unit price × quantity, missing when the price is |
| Pricing.TotalAppend | AirspanCatalog/Airspan_Catalog.py:555 | the total of two tables joined is the sum of their totals |
| Pricing.MissingPriceAddsNothing | AirspanCatalog/Airspan_Catalog.py:555 | a row with a missing extended price does not change the total |
| Pricing.TotalPermutation | AirspanCatalog/Airspan_Catalog.py:555 | the total is invariant under any reordering of the rows |
| Pricing.TotalRemove | AirspanCatalog/Airspan_Catalog.py:555 | the total is any one row's contribution plus the total of the other rows |
| Pricing.TotalUpdate | AirspanCatalog/Airspan_Catalog.py:550-555 | replacing one row changes the total by exactly that row's difference |
| Pricing.ApplyEdits | AirspanCatalog/Airspan_Catalog.py:538-547 | an edit replaces the quantity of the row at its position. Rows are never added, removed or reordered, and unedited rows are unchanged |
| Pricing.Aggregate | AirspanCatalog/Airspan_Catalog.py:521-559 | "no items" exactly when every step is empty. Otherwise each row of the quote is a row of the final selection with its edited quantity and coerced price, and extended price = price × quantity. The total is the sum of the extended prices |
| Pricing.AggregateRowsOnce | AirspanCatalog/Airspan_Catalog.py:521-550 | every line chosen in some step is quoted, and when all lines carry one quantity no catalog row appears on two quote lines |
| Pricing.EditOneRow | AirspanCatalog/Airspan_Catalog.py:538-555 | editing one row's quantity changes that row alone, and the total by exactly the change in that row's extended price |
| Pricing.EditPriced | AirspanCatalog/Airspan_Catalog.py:538-550 | re-editing one row of a priced table replaces that row alone, with the new quantity |
| Pricing.TotalIgnoresStepOrder | AirspanCatalog/Airspan_Catalog.py:521-555 | reordering the step results changes neither whether there is a quote nor its total |
| Pricing.SameRowsSameTotal | AirspanCatalog/Airspan_Catalog.py:522-555 | two duplicate-free selections of the same rows have the same total |
| Pricing.StepOrderSameRows | AirspanCatalog/Airspan_Catalog.py:522 | reordering the step results does not change which rows were chosen |
| Pricing.PricedDistinct | AirspanCatalog/Airspan_Catalog.py:522-550 | pricing a duplicate-free table leaves it duplicate-free |
| Configurator.CategoryChoice | AirspanCatalog/Airspan_Catalog.py:194-479 | a category's rows come from that category. Software and ACP: no duplicates; the normal rows chosen are exactly the auto-select-or-pick choice among the normal rows; the gate adds every CBRS-only row when open and none when closed. ASPlus: the part offered follows the gate, a part with one description is taken whole, otherwise exactly the picked rows of that part. Other categories: one description is taken whole, otherwise exactly the rows whose description was picked |
| Configurator.PickedSpares | AirspanCatalog/Airspan_Catalog.py:499-506 | the spare rows picked are those at the picked positions, in pick order |
| Configurator.StepRows | AirspanCatalog/Airspan_Catalog.py:146-506 | the rows of each category step come from the default view and carry that step's category; the last step is the picked spares |
| Configurator.Steps | AirspanCatalog/Airspan_Catalog.py:146-513 | there are 13 category steps in tag order, then the spares. Every line carries the base-station quantity; category steps hold only default rows of their category, and the spare step only spare rows |
| Configurator.Walkthrough | AirspanCatalog/Airspan_Catalog.py:146-513 | the walkthrough has the 13 category steps and the spare step. Every line carries the base-station quantity, which is at least 1. Category steps hold only default rows of their category, and the spare step only spare rows |
| Configurator.WalkBaseStationRows | AirspanCatalog/Airspan_Catalog.py:151-182 | the base-station step is the auto-select-or-pick choice among the base stations of the chosen spectrum, stamped with the walkthrough's quantity |
| Configurator.WalkCategorySteps | AirspanCatalog/Airspan_Catalog.py:194-479 | each later category step is that category's choice under the walkthrough's gate, stamped with the walkthrough's quantity |
| Configurator.WalkSpares | AirspanCatalog/Airspan_Catalog.py:499-506 | the spare step of a walkthrough holds exactly the rows at the picked positions, in pick order |
| Configurator.WalkBaseStation | AirspanCatalog/Airspan_Catalog.py:151-188 | in a walkthrough every chosen base station has the chosen spectrum, and the gate is open exactly when one of them is a CBRS band. The quantity is the node count when a base station was chosen; otherwise it is 1 and the gate is closed |
| Configurator.BaseStationStep | AirspanCatalog/Airspan_Catalog.py:176-188 | the stamped base-station step has the chosen spectrum on every line, and the gate is open exactly when one of its lines is a CBRS band |
| Configurator.WalkGate | AirspanCatalog/Airspan_Catalog.py:194-479 | in a walkthrough, with the gate closed no CBRS-only Software or ACP row is chosen; with it open every one is. A chosen ASPlus row is CBRS-only exactly when the gate is open |
| Configurator.CategoryGate | AirspanCatalog/Airspan_Catalog.py:194-479 | the same gate facts, stated for the stamped Software, ACP and ASPlus choices under any gate |
| Configurator.DeriveOrder | AirspanCatalog/Airspan_Catalog.py:85-87 | the run halts exactly when the "-" family is selected; for any other family the order is the configuration over that family's default and spare rows, and every row of a quote belongs to the family |
| Configurator.Configure | AirspanCatalog/Airspan_Catalog.py:89-559 | the order is the aggregation of the walkthrough's steps: "no items" exactly when every step is empty; otherwise quote row i is row i of the final selection, so every finally selected row is quoted once. Every quote row is a default or spare row of the family; unedited rows carry the base-station quantity; prices and the total are as in the aggregation |
| Configurator.FamilyRows | AirspanCatalog/Airspan_Catalog.py:55-115 | the default view and the spare list of a family hold only rows of that family |
| Configurator.QuoteOfFamily | AirspanCatalog/Airspan_Catalog.py:89-559 | when every default and spare row belongs to one family, so does every quote row |
| Configurator.WalkLines | AirspanCatalog/Airspan_Catalog.py:146-522 | every row of the final selection is a default or spare row of the family, carrying the base-station quantity |
| Configurator.QuoteLines | AirspanCatalog/Airspan_Catalog.py:522-550 | what holds of every row of the final selection holds of every quote row, and unedited rows keep their quantity |
| Scenarios.SingleN48BaseStation | AirspanCatalog/Airspan_Catalog.py:151-188 | a lone n48 base station is taken without asking, opens the gate and sets the quantity to the node count |
| Scenarios.AsPlusUnderOpenGate | AirspanCatalog/Airspan_Catalog.py:447-479 | with the gate open, an ASPlus category with one normal and one CBRS variant yields the CBRS variant alone |
| Scenarios.SoftwareUnderOpenGate | AirspanCatalog/Airspan_Catalog.py:194-226 | with the gate open, picking one of two normal Software rows next to one CBRS-only row yields that row and the CBRS-only row |
| Scenarios.PickOneNormalAddCbrs | AirspanCatalog/Airspan_Catalog.py:194-226 | the same, for any two normal rows with different descriptions and any CBRS-only row |
| Scenarios.PickFirstNormal | AirspanCatalog/Airspan_Catalog.py:203-211 | among two normal rows with different descriptions, picking the first description chooses the first row alone |
| Scenarios.DedupPair | AirspanCatalog/Airspan_Catalog.py:221 | two different rows concatenated keep both under duplicate removal |
| Scenarios.OnlyCbrsRow | AirspanCatalog/Airspan_Catalog.py:200 | the CBRS part of two normal rows and one CBRS-only row is that row alone |

## Left out

- Loading the spreadsheet and its failures (missing file, sheet or column): the sheet is an input sequence of records.
- All rendering, widgets, session state, the reset buttons and `st.stop`: user answers are parameters. The "-" family halts the run (`Order.Halted`).
- Building the family dropdown and hiding columns for display: presentation only.
- Price edits in the final table: only quantity edits are modelled, as a map from row position to a non-negative quantity.
- Clearing a quantity cell in the final table: edits always supply a number.
- Floating point: prices and totals are Dafny `real`, so rounding is not modelled. The `%.2f` and `:,.2f` display formats are left out.
- Cells.ToNumeric: text that spells a number (such as "12.5") is treated as missing rather than parsed, because the sheet's price column holds numbers.
- Selection.Lower: only ASCII letters are lowercased. Python lowercases all of Unicode, but no non-ASCII character lowercases to one of the characters of "b48" or "n48".
- Catalog.SortByTag: only order by category rank and permutation are stated; the order of rows within one category is not, because pandas' default sort is not stable.
- Widget session state: the picks are keyed by prompt and taken as given. Whether a multiselect keeps or loses its picks when an earlier answer changes its options is Streamlit's widget-identity behaviour, which the script's text does not fix.
- The spare multiselect cannot return a position twice; the model accepts any list of valid positions, and duplicate removal at the end absorbs a repeat.

=== FILE: catalog.dfy ===
/** The catalog table: spreadsheet rows, their unpivot into one row per
    (item, product family), and the two family views the configurator works
    from — the default build-out rows and the optional/spare rows.
 */
module Catalog {
  import opened Cells
  import opened Seqs

  /** The product-family indicator columns of the sheet, in sheet order. */
  const FamilyColumns: seq<string> := [
    "AS1032", "AS1035", "AS1050", "AH4200", "AH4400", "A5G7200",
    "AS1900", "AS2900", "AV1901", "AV6200", "AH4000", "AS1000",
    "AS1030", "AV1500", "AV1000", "AV1200", "-"
  ]

  /** The family value that means "nothing selected yet". */
  const NoFamily: string := "-"

  const BaseStation: string := "Base Station"
  const Software: string := "Software"
  const Acp: string := "ACP"
  const AsPlus: string := "ASPlus"

  /** The fixed category order of the walkthrough and of every sorted view. */
  const TagOrder: seq<string> := [
    BaseStation, Software, Acp, "Antenna", "Cable",
    "Connector/Splitter/Adapter", "Filter", "Mounting Kit",
    "Multi-Accessory", "Power Supply", "Timing", "Extended Warranty", AsPlus
  ]

  /** Where the categories with a step of their own sit in the order. */
  lemma TagPositions()
    ensures |TagOrder| == 13
    ensures TagOrder[0] == BaseStation && TagOrder[1] == Software
    ensures TagOrder[2] == Acp && TagOrder[12] == AsPlus
  {
  }

  const DefaultConfiguration: string := "Default"
  const SpareConfiguration: string := "Optional/Spare"

  /** One row of the "Catalog" sheet. `indicators` holds the family columns;
      a family absent from the map is a blank cell. */
  datatype SheetRow = SheetRow(
    number: string,
    active: Option<int>,
    group: string,
    tag: Option<string>,
    spectrum: Option<string>,
    cbrsOnly: Option<int>,
    description: string,
    listPrice: PriceCell,
    usListPrice: PriceCell,
    configuration: string,
    comment: string,
    indicators: map<string, int>)

  /** One row of the unpivoted table: the sheet's id columns plus the family
      this copy is for and that family's indicator cell. */
  datatype Item = Item(
    number: string,
    active: Option<int>,
    group: string,
    tag: Option<string>,
    spectrum: Option<string>,
    cbrsOnly: Option<int>,
    description: string,
    listPrice: PriceCell,
    usListPrice: PriceCell,
    configuration: string,
    comment: string,
    family: string,
    indicator: Option<int>)

  function Unpivot(row: SheetRow, family: string): (x: Item)
    ensures x.family == family
  {
    Item(row.number, row.active, row.group, row.tag, row.spectrum, row.cbrsOnly,
         row.description, row.listPrice, row.usListPrice, row.configuration,
         row.comment, family,
         if family in row.indicators then Some(row.indicators[family]) else None)
  }

  /** The unpivot over the given family columns: for each column in turn, one
      copy of every sheet row. */
  function MeltColumns(sheet: seq<SheetRow>, cols: seq<string>): (r: seq<Item>)
    ensures |r| == |cols| * |sheet|
    ensures forall x :: x in r ==> x.family in cols
  {
    if |cols| == 0 then []
    else
      var block := seq(|sheet|, i requires 0 <= i < |sheet| => Unpivot(sheet[i], cols[0]));
      var rest := MeltColumns(sheet, cols[1..]);
      assert forall x :: x in block ==> x.family == cols[0];
      block + rest
  }

  /** Every sheet row has a copy for every family column. */
  lemma {:induction false} MeltHasCopy(sheet: seq<SheetRow>, cols: seq<string>, i: nat, f: string)
    requires i < |sheet| && f in cols
    ensures Unpivot(sheet[i], f) in MeltColumns(sheet, cols)
    decreases |cols|
  {
    var block := seq(|sheet|, j requires 0 <= j < |sheet| => Unpivot(sheet[j], cols[0]));
    assert MeltColumns(sheet, cols) == block + MeltColumns(sheet, cols[1..]);
    if f == cols[0] {
      assert block[i] == Unpivot(sheet[i], f);
    } else {
      assert f in cols[1..];
      MeltHasCopy(sheet, cols[1..], i, f);
    }
  }

  /** Every row of the unpivot is the copy of some sheet row for its own family. */
  lemma {:induction false} MeltCopyOf(sheet: seq<SheetRow>, cols: seq<string>, x: Item)
    requires x in MeltColumns(sheet, cols)
    ensures exists i :: 0 <= i < |sheet| && x == Unpivot(sheet[i], x.family)
    decreases |cols|
  {
    var block := seq(|sheet|, j requires 0 <= j < |sheet| => Unpivot(sheet[j], cols[0]));
    var rest := MeltColumns(sheet, cols[1..]);
    assert MeltColumns(sheet, cols) == block + rest;
    if x in block {
      var i :| 0 <= i < |sheet| && block[i] == x;
      assert x == Unpivot(sheet[i], x.family);
    } else {
      MeltCopyOf(sheet, cols[1..], x);
    }
  }

  /** The whole sheet unpivoted over every family column. */
  function Melt(sheet: seq<SheetRow>): seq<Item> {
    MeltColumns(sheet, FamilyColumns)
  }

  /** Rows of the unpivoted table whose family indicator is 1. */
  function Indicated(sheet: seq<SheetRow>): (r: seq<Item>)
    ensures forall x :: multiset(r)[x] == if x.indicator == Some(1) then multiset(Melt(sheet))[x] else 0
    ensures forall x :: x in r <==> x in Melt(sheet) && x.indicator == Some(1)
  {
    Filter(Melt(sheet), (x: Item) => x.indicator == Some(1))
  }

  /** Position of `x` in `s`, or `|s|` when it does not occur. */
  function IndexOf(s: seq<string>, x: string): (k: nat)
    ensures k <= |s|
    ensures k < |s| ==> s[k] == x
    ensures k == |s| <==> x !in s
  {
    if |s| == 0 then 0
    else if s[0] == x then 0
    else 1 + IndexOf(s[1..], x)
  }

  /** A tag that names one of the thirteen categories. */
  predicate KnownTag(tag: Option<string>) {
    tag.Some? && tag.value in TagOrder
  }

  /** The rank of a tag in the category order; a missing or unknown tag ranks last. */
  function Rank(tag: Option<string>): (k: nat)
    ensures k <= |TagOrder|
    ensures k < |TagOrder| <==> KnownTag(tag)
    ensures k < |TagOrder| ==> TagOrder[k] == tag.value
  {
    if tag.Some? then IndexOf(TagOrder, tag.value) else |TagOrder|
  }

  predicate SortedByTag(rows: seq<Item>) {
    forall i, j :: 0 <= i < j < |rows| ==> Rank(rows[i].tag) <= Rank(rows[j].tag)
  }

  /** The rows of rank `k` or more, grouped by rank in increasing order. */
  function Buckets(rows: seq<Item>, k: nat): (r: seq<Item>)
    ensures forall i :: 0 <= i < |r| ==> k <= Rank(r[i].tag)
    ensures SortedByTag(r)
    ensures forall x :: multiset(r)[x] == if k <= Rank(x.tag) then multiset(rows)[x] else 0
    decreases |TagOrder| + 1 - k
  {
    if k > |TagOrder| then []
    else
      var here := Filter(rows, (x: Item) => Rank(x.tag) == k);
      var later := Buckets(rows, k + 1);
      BucketsJoin(here, later, k);
      here + later
  }

  /** Rows of rank `k` followed by sorted rows of higher rank are sorted. */
  lemma BucketsJoin(here: seq<Item>, later: seq<Item>, k: nat)
    requires forall i :: 0 <= i < |here| ==> Rank(here[i].tag) == k
    requires forall i :: 0 <= i < |later| ==> k + 1 <= Rank(later[i].tag)
    requires SortedByTag(later)
    ensures SortedByTag(here + later)
    ensures forall i :: 0 <= i < |here + later| ==> k <= Rank((here + later)[i].tag)
  {
    var r := here + later;
    forall i, j | 0 <= i < j < |r| ensures Rank(r[i].tag) <= Rank(r[j].tag) {
      if j < |here| {
        assert r[i] == here[i] && r[j] == here[j];
      } else if i < |here| {
        assert r[i] == here[i] && r[j] == later[j - |here|];
      } else {
        assert r[i] == later[i - |here|] && r[j] == later[j - |here|];
      }
    }
  }

  /** Orders rows by category rank, rows without a known category last. */
  function SortByTag(rows: seq<Item>): (r: seq<Item>)
    ensures SortedByTag(r)
    ensures multiset(r) == multiset(rows)
  {
    var r := Buckets(rows, 0);
    assert forall x :: multiset(r)[x] == multiset(rows)[x];
    r
  }

  /** A row of the default build-out of `family`. */
  predicate IsDefaultRow(x: Item, family: string) {
    && x.indicator == Some(1)
    && x.family == family
    && x.configuration == DefaultConfiguration
    && KnownTag(x.tag)
  }

  /** The rows of the unpivot that belong to the default build-out of a
      family, in unpivot order. */
  function DefaultCandidates(sheet: seq<SheetRow>, family: string): (r: seq<Item>)
    ensures forall x :: multiset(r)[x] == if IsDefaultRow(x, family) then multiset(Melt(sheet))[x] else 0
  {
    var families := Indicated(sheet);
    var mine := Filter(families, (x: Item) => x.family == family && x.configuration == DefaultConfiguration);
    Filter(mine, (x: Item) => KnownTag(x.tag))
  }

  /** The default build-out of a family, ordered by category. */
  function DefaultRows(sheet: seq<SheetRow>, family: string): (r: seq<Item>)
    ensures forall x :: multiset(r)[x] == if IsDefaultRow(x, family) then multiset(Melt(sheet))[x] else 0
    ensures forall x :: x in r <==> x in Melt(sheet) && IsDefaultRow(x, family)
    ensures SortedByTag(r)
  {
    var r := SortByTag(DefaultCandidates(sheet, family));
    assert forall x :: x in r <==> multiset(r)[x] > 0;
    r
  }

  /** Whether the sheet marks `row` as part of the default build-out of `family`. */
  predicate SheetDefault(row: SheetRow, family: string) {
    && family in row.indicators && row.indicators[family] == 1
    && row.configuration == DefaultConfiguration
    && KnownTag(row.tag)
  }

  /** Read back at the level of the sheet: a row appears in the default view of
      a listed family exactly when the sheet marks it for that family, it is a
      default row and its category is one of the thirteen. */
  lemma DefaultRowsOfSheet(sheet: seq<SheetRow>, family: string, i: nat)
    requires family in FamilyColumns
    requires i < |sheet|
    ensures Unpivot(sheet[i], family) in DefaultRows(sheet, family) <==> SheetDefault(sheet[i], family)
  {
    MeltHasCopy(sheet, FamilyColumns, i, family);
  }

  /** A family that has no indicator column has no default rows. */
  lemma DefaultRowsOfUnknownFamily(sheet: seq<SheetRow>, family: string)
    requires family !in FamilyColumns
    ensures DefaultRows(sheet, family) == []
  {
    var r := DefaultRows(sheet, family);
    if |r| > 0 {
      assert false;
    }
  }

  /** A row of the optional/spare list of `family`. Unlike the default view,
      the row must be active and its category is not restricted. */
  predicate IsSpareRow(x: Item, family: string) {
    && x.indicator == Some(1)
    && x.family == family
    && x.active == Some(1)
    && x.configuration == SpareConfiguration
  }

  /** Converting the tag to the fixed category type: a tag outside the
      thirteen becomes missing. */
  function Retag(x: Item): (y: Item)
    ensures y.tag.None? || KnownTag(y.tag)
    ensures Rank(x.tag) < |TagOrder| ==> y == x
    ensures y == x.(tag := y.tag)
    ensures KnownTag(y.tag) ==> y.tag == x.tag
  {
    if Rank(x.tag) < |TagOrder| then x else x.(tag := None)
  }

  function RetagAll(rows: seq<Item>): (r: seq<Item>)
    ensures |r| == |rows|
    ensures forall i :: 0 <= i < |r| ==> r[i] == Retag(rows[i])
    ensures forall x :: x in rows ==> Retag(x) in r
    ensures forall y :: y in r ==> exists x :: x in rows && y == Retag(x)
  {
    var r := seq(|rows|, i requires 0 <= i < |rows| => Retag(rows[i]));
    assert forall x :: x in rows ==> Retag(x) in r by {
      forall x | x in rows ensures Retag(x) in r {
        var i :| 0 <= i < |rows| && rows[i] == x;
        assert r[i] == Retag(x);
      }
    }
    assert forall y :: y in r ==> exists x :: x in rows && y == Retag(x) by {
      forall y | y in r ensures exists x :: x in rows && y == Retag(x) {
        var i :| 0 <= i < |r| && r[i] == y;
        var x := rows[i];
        assert x in rows && y == Retag(x);
      }
    }
    r
  }

  /** The rows of the unpivot offered as optional/spare items of a family,
      in unpivot order. */
  function SpareCandidates(sheet: seq<SheetRow>, family: string): (r: seq<Item>)
    ensures forall x :: multiset(r)[x] == if IsSpareRow(x, family) then multiset(Melt(sheet))[x] else 0
    ensures forall x :: x in r <==> x in Melt(sheet) && IsSpareRow(x, family)
  {
    var families := Indicated(sheet);
    Filter(families, (x: Item) => x.family == family && x.active == Some(1) && x.configuration == SpareConfiguration)
  }

  /** The optional/spare rows of a family, ordered by category with rows of
      unknown category last. */
  function SpareRows(sheet: seq<SheetRow>, family: string): (r: seq<Item>)
    ensures forall x :: x in Melt(sheet) && IsSpareRow(x, family) ==> Retag(x) in r
    ensures forall y :: y in r ==> exists x :: x in Melt(sheet) && IsSpareRow(x, family) && y == Retag(x)
    ensures forall y :: y in r ==> IsSpareRow(y, family) && (y.tag.None? || KnownTag(y.tag))
    ensures SortedByTag(r)
    ensures |r| == |SpareCandidates(sheet, family)|
    ensures multiset(r) == multiset(RetagAll(SpareCandidates(sheet, family)))
  {
    var mine := SpareCandidates(sheet, family);
    var tagged := RetagAll(mine);
    var r := SortByTag(tagged);
    assert forall y :: y in r <==> y in tagged by {
      forall y ensures y in r <==> y in tagged {
        assert y in r <==> multiset(r)[y] > 0;
        assert y in tagged <==> multiset(tagged)[y] > 0;
      }
    }
    r
  }
}

=== FILE: cells.dfy ===
/** Spreadsheet cell values as the catalog loader delivers them.

    A blank cell is a missing value: it never compares equal to a number or a
    string, and it is skipped by sums. `Option` stands for such a cell.
 */
module Cells {

  /** A cell that may be blank (a missing value). */
  datatype Option<+T> = None | Some(value: T)

  /** A raw "US List Price" cell: a number, some text, or nothing. */
  datatype PriceCell = Number(amount: real) | Text(text: string) | Blank

  /** Numeric coercion in which anything that is not a number becomes missing. */
  function ToNumeric(c: PriceCell): (r: Option<real>)
    ensures r.Some? <==> c.Number?
    ensures c.Number? ==> r.value == c.amount
  {
    match c
    case Number(a) => Some(a)
    case Text(_) => None
    case Blank => None
  }
}

=== FILE: configurator.dfy ===
/** The whole walkthrough of one configuration: the base station first, then
    every other category in the fixed tag order under its policy, then the
    optional/spare rows, and finally the priced order.

    Every user interaction is an explicit input (`Choices`).
 */
module Configurator {
  import opened Cells
  import opened Seqs
  import opened Catalog
  import opened Selection
  import opened Pricing

  /** A multiselect of the walkthrough: the category it belongs to, and for
      ASPlus whether it is the list of CBRS variants. */
  datatype Prompt = Prompt(tag: string, cbrsVariant: bool)

  /** The user's answers: the product family, the spectrum picked when the
      base stations offer several, the descriptions picked in each multiselect,
      the node count, the optional/spare rows picked (by position in the spare
      list, in the order picked) and the quantity edits in the final table. */
  datatype Choices = Choices(
    family: string,
    spectrumPick: Option<string>,
    picks: map<Prompt, set<string>>,
    nodeCount: int,
    sparePicks: seq<nat>,
    edits: map<nat, nat>)

  /** The descriptions picked at a prompt; an untouched multiselect picks nothing. */
  function Picked(ch: Choices, p: Prompt): set<string> {
    if p in ch.picks then ch.picks[p] else {}
  }

  /** Categories after the base station whose step is a plain choice. */
  predicate PlainCategory(tag: string) {
    tag != BaseStation && tag != Software && tag != Acp && tag != AsPlus
  }

  /** The rows chosen in the step of one category after the base station,
      given the CBRS gate: the additive policy for Software and ACP, the
      exclusive policy for ASPlus, a plain choice otherwise. */
  function CategoryChoice(defaults: seq<Item>, ch: Choices, isCbrs: bool, tag: string): (r: seq<Item>)
    ensures forall x :: x in r ==> x in defaults && x.tag == Some(tag)
    ensures (tag == Software || tag == Acp) && !isCbrs ==>
      forall x :: x in r ==> x.cbrsOnly != Some(1)
    ensures (tag == Software || tag == Acp) && isCbrs ==>
      forall x :: x in defaults && x.tag == Some(tag) && x.cbrsOnly == Some(1) ==> x in r
    ensures (tag == Software || tag == Acp) ==> NoDup(r)
    ensures (tag == Software || tag == Acp) ==> forall x ::
      (x in r && x.cbrsOnly != Some(1)) <==> x in AutoSelect(NormalRows(ByTag(defaults, tag)), Picked(ch, Prompt(tag, false)))
    ensures tag == AsPlus ==> forall x :: x in r ==> (x.cbrsOnly == Some(1) <==> isCbrs)
    ensures tag == AsPlus ==>
      var offered := if isCbrs then CbrsRows(ByTag(defaults, AsPlus)) else NormalRows(ByTag(defaults, AsPlus));
      && (OneDescription(offered) ==> r == offered)
      && (!OneDescription(offered) ==>
            (forall x :: multiset(r)[x] ==
               if x.description in Picked(ch, Prompt(AsPlus, isCbrs)) then multiset(offered)[x] else 0))
    ensures PlainCategory(tag) && OneDescription(ByTag(defaults, tag)) ==> r == ByTag(defaults, tag)
    ensures PlainCategory(tag) && !OneDescription(ByTag(defaults, tag)) ==> forall x ::
      multiset(r)[x] == if x.description in Picked(ch, Prompt(tag, false)) then multiset(ByTag(defaults, tag))[x] else 0
    ensures PlainCategory(tag) && !OneDescription(ByTag(defaults, tag)) ==> forall x ::
      x in r <==> x in defaults && x.tag == Some(tag) && x.description in Picked(ch, Prompt(tag, false))
    ensures PlainCategory(tag) ==>
      forall x :: x in defaults && x.tag == Some(tag) && x.description in Picked(ch, Prompt(tag, false)) ==> x in r
  {
    var rows := ByTag(defaults, tag);
    if tag == Software || tag == Acp then
      var r := AdditiveChoice(rows, Picked(ch, Prompt(tag, false)), isCbrs);
      assert forall x :: x in r ==> x in rows;
      r
    else if tag == AsPlus then
      ExclusiveChoice(rows, Picked(ch, Prompt(AsPlus, isCbrs)), isCbrs)
    else
      var picked := Picked(ch, Prompt(tag, false));
      var r := AutoSelect(rows, picked);
      assert forall x :: x in rows && x.description in picked ==> x in r by {
        forall x | x in rows && x.description in picked ensures x in r {
          if !OneDescription(rows) {
            AutoSelectPicks(rows, picked, x);
          }
        }
      }
      r
  }

  /** The walkthrough's outcome: one result per step (the thirteen categories in
      tag order, then the spares), the CBRS gate and the node count. */
  datatype Walk = Walk(steps: seq<seq<Line>>, isCbrs: bool, systemQty: int)

  /** The spare rows picked, in the order they were picked. */
  function PickedSpares(spares: seq<Item>, picks: seq<nat>): (r: seq<Item>)
    requires forall j :: 0 <= j < |picks| ==> picks[j] < |spares|
    ensures |r| == |picks|
    ensures forall j :: 0 <= j < |picks| ==> r[j] == spares[picks[j]]
    ensures forall x :: x in r ==> x in spares
  {
    seq(|picks|, j requires 0 <= j < |picks| => spares[picks[j]])
  }

  /** The rows chosen at step `s` of the walkthrough: the base stations, one
      category after another in tag order, then the spares. */
  function StepRows(defaults: seq<Item>, spares: seq<Item>, ch: Choices, bs: BaseStationChoice, s: nat): (r: seq<Item>)
    requires s <= |TagOrder|
    requires forall j :: 0 <= j < |ch.sparePicks| ==> ch.sparePicks[j] < |spares|
    requires forall x :: x in bs.chosen ==> x in ByTag(defaults, BaseStation)
    ensures s < |TagOrder| ==> forall x :: x in r ==> x in defaults && x.tag == Some(TagOrder[s])
    ensures s == |TagOrder| ==> r == PickedSpares(spares, ch.sparePicks)
  {
    if s == 0 then
      assert TagOrder[0] == BaseStation;
      var rows := ByTag(defaults, BaseStation);
      assert forall x :: x in bs.chosen ==> x in rows;
      assert forall x :: x in rows ==> x in defaults && x.tag == Some(BaseStation);
      bs.chosen
    else if s < |TagOrder| then CategoryChoice(defaults, ch, bs.isCbrs, TagOrder[s])
    else PickedSpares(spares, ch.sparePicks)
  }

  /** The stamped results of all steps, given the base-station outcome. */
  function Steps(defaults: seq<Item>, spares: seq<Item>, ch: Choices, bs: BaseStationChoice): (steps: seq<seq<Line>>)
    requires forall j :: 0 <= j < |ch.sparePicks| ==> ch.sparePicks[j] < |spares|
    requires forall x :: x in bs.chosen ==> x in ByTag(defaults, BaseStation)
    ensures |steps| == |TagOrder| + 1
    ensures forall s, l :: 0 <= s < |steps| && l in steps[s] ==> l.quantity == bs.systemQty
    ensures forall s, l :: 0 <= s < |TagOrder| && l in steps[s] ==>
      l.item in defaults && l.item.tag == Some(TagOrder[s])
    ensures forall l :: l in steps[|TagOrder|] ==> l.item in spares
  {
    seq(|TagOrder| + 1, s requires 0 <= s <= |TagOrder| =>
      Stamp(StepRows(defaults, spares, ch, bs, s), bs.systemQty))
  }

  /** Runs the walkthrough over the default rows and the spare rows of a family. */
  function Walkthrough(defaults: seq<Item>, spares: seq<Item>, ch: Choices): (w: Walk)
    requires ch.nodeCount >= 1
    requires forall j :: 0 <= j < |ch.sparePicks| ==> ch.sparePicks[j] < |spares|
    ensures |w.steps| == |TagOrder| + 1
    ensures w.systemQty >= 1
    ensures forall s, l :: 0 <= s < |w.steps| && l in w.steps[s] ==> l.quantity == w.systemQty
    ensures forall s, l :: 0 <= s < |TagOrder| && l in w.steps[s] ==>
      l.item in defaults && l.item.tag == Some(TagOrder[s])
    ensures forall l :: l in w.steps[|TagOrder|] ==> l.item in spares
  {
    var bs := ChooseBaseStations(ByTag(defaults, BaseStation), ch.spectrumPick,
                                 Picked(ch, Prompt(BaseStation, false)), ch.nodeCount);
    Walk(Steps(defaults, spares, ch, bs), bs.isCbrs, bs.systemQty)
  }

  /** The base-station step of a walkthrough: every chosen base station has the
      chosen spectrum, and the gate is open exactly when one of them is a CBRS band. */
  lemma WalkBaseStation(defaults: seq<Item>, spares: seq<Item>, ch: Choices)
    requires ch.nodeCount >= 1
    requires forall j :: 0 <= j < |ch.sparePicks| ==> ch.sparePicks[j] < |spares|
    ensures forall l :: l in Walkthrough(defaults, spares, ch).steps[0] ==>
      l.item.spectrum.Some? && l.item.spectrum == ChosenSpectrum(ByTag(defaults, BaseStation), ch.spectrumPick)
    ensures Walkthrough(defaults, spares, ch).isCbrs <==>
      exists l :: l in Walkthrough(defaults, spares, ch).steps[0] && IsCbrsBand(l.item.spectrum)
    ensures |Walkthrough(defaults, spares, ch).steps[0]| > 0 ==> Walkthrough(defaults, spares, ch).systemQty == ch.nodeCount
    ensures |Walkthrough(defaults, spares, ch).steps[0]| == 0 ==>
      Walkthrough(defaults, spares, ch).systemQty == 1 && !Walkthrough(defaults, spares, ch).isCbrs
  {
    var bsRows := ByTag(defaults, BaseStation);
    var bs := ChooseBaseStations(bsRows, ch.spectrumPick, Picked(ch, Prompt(BaseStation, false)), ch.nodeCount);
    var w := Walkthrough(defaults, spares, ch);
    BaseStationStep(bs, ChosenSpectrum(bsRows, ch.spectrumPick), w.steps[0]);
  }

  /** The base-station step of a walkthrough is the user's choice among the
      base stations of the chosen spectrum, stamped with the walkthrough's quantity. */
  lemma WalkBaseStationRows(defaults: seq<Item>, spares: seq<Item>, ch: Choices)
    requires ch.nodeCount >= 1
    requires forall j :: 0 <= j < |ch.sparePicks| ==> ch.sparePicks[j] < |spares|
    ensures Walkthrough(defaults, spares, ch).steps[0]
         == Stamp(AutoSelect(NarrowSpectrum(ByTag(defaults, BaseStation), ch.spectrumPick),
                             Picked(ch, Prompt(BaseStation, false))),
                  Walkthrough(defaults, spares, ch).systemQty)
  {
    TagPositions();
    var bs := ChooseBaseStations(ByTag(defaults, BaseStation), ch.spectrumPick,
                                 Picked(ch, Prompt(BaseStation, false)), ch.nodeCount);
    assert StepRows(defaults, spares, ch, bs, 0) == bs.chosen;
  }

  /** Every category step after the base station is that category's choice
      under the walkthrough's gate, stamped with the walkthrough's quantity. */
  lemma WalkCategorySteps(defaults: seq<Item>, spares: seq<Item>, ch: Choices, s: nat)
    requires ch.nodeCount >= 1
    requires forall j :: 0 <= j < |ch.sparePicks| ==> ch.sparePicks[j] < |spares|
    requires 1 <= s < |TagOrder|
    ensures Walkthrough(defaults, spares, ch).steps[s]
         == Stamp(CategoryChoice(defaults, ch, Walkthrough(defaults, spares, ch).isCbrs, TagOrder[s]),
                  Walkthrough(defaults, spares, ch).systemQty)
  {
  }

  /** The spare step of a walkthrough holds the rows at the picked positions,
      in the order picked. */
  lemma WalkSpares(defaults: seq<Item>, spares: seq<Item>, ch: Choices)
    requires ch.nodeCount >= 1
    requires forall j :: 0 <= j < |ch.sparePicks| ==> ch.sparePicks[j] < |spares|
    ensures |Walkthrough(defaults, spares, ch).steps[|TagOrder|]| == |ch.sparePicks|
    ensures forall j :: 0 <= j < |ch.sparePicks| ==>
      Walkthrough(defaults, spares, ch).steps[|TagOrder|][j].item == spares[ch.sparePicks[j]]
  {
  }

  /** The steps the CBRS gate acts on in a walkthrough: with the gate closed no
      CBRS-only Software or ACP row is chosen, with it open every one is; the
      ASPlus rows chosen are CBRS-only exactly when the gate is open. */
  lemma WalkGate(defaults: seq<Item>, spares: seq<Item>, ch: Choices)
    requires ch.nodeCount >= 1
    requires forall j :: 0 <= j < |ch.sparePicks| ==> ch.sparePicks[j] < |spares|
    ensures var w := Walkthrough(defaults, spares, ch);
      !w.isCbrs ==> forall l :: l in w.steps[1] || l in w.steps[2] ==> l.item.cbrsOnly != Some(1)
    ensures var w := Walkthrough(defaults, spares, ch);
      w.isCbrs ==> forall x :: x in defaults && x.cbrsOnly == Some(1) && x.tag == Some(Software) ==>
        Line(x, w.systemQty) in w.steps[1]
    ensures var w := Walkthrough(defaults, spares, ch);
      w.isCbrs ==> forall x :: x in defaults && x.cbrsOnly == Some(1) && x.tag == Some(Acp) ==>
        Line(x, w.systemQty) in w.steps[2]
    ensures var w := Walkthrough(defaults, spares, ch);
      forall l :: l in w.steps[12] ==> (l.item.cbrsOnly == Some(1) <==> w.isCbrs)
  {
    var w := Walkthrough(defaults, spares, ch);
    TagPositions();
    WalkCategorySteps(defaults, spares, ch, 1);
    WalkCategorySteps(defaults, spares, ch, 2);
    WalkCategorySteps(defaults, spares, ch, 12);
    CategoryGate(defaults, ch, w.isCbrs, w.systemQty);
  }

  /** The base-station step read back from its stamped lines. */
  lemma BaseStationStep(bs: BaseStationChoice, spectrum: Option<string>, step: seq<Line>)
    requires forall i :: 0 <= i < |bs.chosen| ==> bs.chosen[i].spectrum.Some? && bs.chosen[i].spectrum == spectrum
    requires bs.isCbrs <==> exists i :: 0 <= i < |bs.chosen| && IsCbrsBand(bs.chosen[i].spectrum)
    requires step == Stamp(bs.chosen, bs.systemQty)
    ensures forall l :: l in step ==> l.item.spectrum.Some? && l.item.spectrum == spectrum
    ensures bs.isCbrs <==> exists l :: l in step && IsCbrsBand(l.item.spectrum)
  {
    forall l | l in step ensures l.item.spectrum.Some? && l.item.spectrum == spectrum {
      var i :| 0 <= i < |bs.chosen| && bs.chosen[i] == l.item;
    }
    if bs.isCbrs {
      var i :| 0 <= i < |bs.chosen| && IsCbrsBand(bs.chosen[i].spectrum);
      assert step[i] in step;
    }
    if exists l :: l in step && IsCbrsBand(l.item.spectrum) {
      var l :| l in step && IsCbrsBand(l.item.spectrum);
      var i :| 0 <= i < |bs.chosen| && bs.chosen[i] == l.item;
    }
  }

  /** The CBRS gate's effect on the Software, ACP and ASPlus choices, read
      back from their stamped lines. */
  lemma CategoryGate(defaults: seq<Item>, ch: Choices, isCbrs: bool, q: int)
    ensures !isCbrs ==> forall l :: l in Stamp(CategoryChoice(defaults, ch, isCbrs, Software), q) ==> l.item.cbrsOnly != Some(1)
    ensures !isCbrs ==> forall l :: l in Stamp(CategoryChoice(defaults, ch, isCbrs, Acp), q) ==> l.item.cbrsOnly != Some(1)
    ensures isCbrs ==> forall x :: x in defaults && x.cbrsOnly == Some(1) && x.tag == Some(Software) ==>
      Line(x, q) in Stamp(CategoryChoice(defaults, ch, isCbrs, Software), q)
    ensures isCbrs ==> forall x :: x in defaults && x.cbrsOnly == Some(1) && x.tag == Some(Acp) ==>
      Line(x, q) in Stamp(CategoryChoice(defaults, ch, isCbrs, Acp), q)
    ensures forall l :: l in Stamp(CategoryChoice(defaults, ch, isCbrs, AsPlus), q) ==> (l.item.cbrsOnly == Some(1) <==> isCbrs)
  {
  }


  /** The configurator from catalog sheet to order. With no family selected
      (the "-" entry) the run halts; otherwise the walkthrough runs over the
      family's default and spare rows. */
  function DeriveOrder(sheet: seq<SheetRow>, ch: Choices): (o: Order)
    requires ch.nodeCount >= 1
    requires forall j :: 0 <= j < |ch.sparePicks| ==> ch.sparePicks[j] < |SpareRows(sheet, ch.family)|
    ensures o.Halted? <==> ch.family == NoFamily
    ensures o.Quote? ==> forall i :: 0 <= i < |o.lines| ==> o.lines[i].item.family == ch.family
    ensures ch.family != NoFamily ==> o == Configure(DefaultRows(sheet, ch.family), SpareRows(sheet, ch.family), ch)
  {
    if ch.family == NoFamily then Halted
    else
      var defaults := DefaultRows(sheet, ch.family);
      var spares := SpareRows(sheet, ch.family);
      FamilyRows(sheet, ch.family);
      QuoteOfFamily(defaults, spares, ch, ch.family);
      Configure(defaults, spares, ch)
  }

  /** A quote drawn from rows of one family holds only rows of that family. */
  lemma QuoteOfFamily(defaults: seq<Item>, spares: seq<Item>, ch: Choices, family: string)
    requires ch.nodeCount >= 1
    requires forall j :: 0 <= j < |ch.sparePicks| ==> ch.sparePicks[j] < |spares|
    requires forall x :: x in defaults ==> x.family == family
    requires forall x :: x in spares ==> x.family == family
    ensures Configure(defaults, spares, ch).Quote? ==>
      forall i :: 0 <= i < |Configure(defaults, spares, ch).lines| ==>
        Configure(defaults, spares, ch).lines[i].item.family == family
  {
  }

  /** Every default or spare row of a family belongs to that family. */
  lemma FamilyRows(sheet: seq<SheetRow>, family: string)
    ensures forall x :: x in DefaultRows(sheet, family) ==> x.family == family
    ensures forall x :: x in SpareRows(sheet, family) ==> x.family == family
  {
  }

  /** The order of a walkthrough over a family's default and spare rows: the
      steps are aggregated into "no items" or a priced quote. */
  function Configure(defaults: seq<Item>, spares: seq<Item>, ch: Choices): (o: Order)
    requires ch.nodeCount >= 1
    requires forall j :: 0 <= j < |ch.sparePicks| ==> ch.sparePicks[j] < |spares|
    ensures !o.Halted?
    ensures o == Aggregate(Walkthrough(defaults, spares, ch).steps, ch.edits)
    ensures o.Quote? ==> |o.lines| == |FinalSelection(Walkthrough(defaults, spares, ch).steps)|
    ensures o.Quote? ==> forall i :: 0 <= i < |o.lines| ==>
      o.lines[i].item == FinalSelection(Walkthrough(defaults, spares, ch).steps)[i].item
    ensures o.NoItems? <==>
      var w := Walkthrough(defaults, spares, ch);
      forall s :: 0 <= s < |w.steps| ==> |w.steps[s]| == 0
    ensures o.Quote? ==> forall i :: 0 <= i < |o.lines| ==>
      o.lines[i].item in defaults || o.lines[i].item in spares
    ensures o.Quote? ==> forall i :: 0 <= i < |o.lines| && i !in ch.edits ==>
      o.lines[i].quantity == Walkthrough(defaults, spares, ch).systemQty
    ensures o.Quote? ==> forall i :: 0 <= i < |o.lines| ==>
      ExtendedIsPriceTimesQuantity(o.lines[i]) && o.lines[i].unitPrice == ToNumeric(o.lines[i].item.usListPrice)
    ensures o.Quote? ==> o.total == Total(o.lines)
  {
    var w := Walkthrough(defaults, spares, ch);
    WalkLines(defaults, spares, ch);
    QuoteLines(w.steps, ch.edits, defaults, spares, w.systemQty);
    Aggregate(w.steps, ch.edits)
  }

  /** The quote's rows are the final selection's rows, so what holds of every
      chosen line holds of every row of the quote. */
  lemma QuoteLines(steps: seq<seq<Line>>, edits: map<nat, nat>, defaults: seq<Item>, spares: seq<Item>, q: int)
    requires forall l :: l in FinalSelection(steps) ==> l.quantity == q && (l.item in defaults || l.item in spares)
    ensures Aggregate(steps, edits).Quote? ==> forall i :: 0 <= i < |Aggregate(steps, edits).lines| ==>
      (Aggregate(steps, edits).lines[i].item in defaults || Aggregate(steps, edits).lines[i].item in spares)
    ensures Aggregate(steps, edits).Quote? ==> forall i :: 0 <= i < |Aggregate(steps, edits).lines| && i !in edits ==>
      Aggregate(steps, edits).lines[i].quantity == q
  {
    var f := FinalSelection(steps);
    assert forall i :: 0 <= i < |f| ==> f[i] in f;
  }

  /** Every line of every step is a default or spare row carrying the node count. */
  lemma WalkLines(defaults: seq<Item>, spares: seq<Item>, ch: Choices)
    requires ch.nodeCount >= 1
    requires forall j :: 0 <= j < |ch.sparePicks| ==> ch.sparePicks[j] < |spares|
    ensures forall l :: l in FinalSelection(Walkthrough(defaults, spares, ch).steps) ==>
      l.quantity == Walkthrough(defaults, spares, ch).systemQty && (l.item in defaults || l.item in spares)
  {
    var w := Walkthrough(defaults, spares, ch);
    forall s, l | 0 <= s < |w.steps| && l in w.steps[s]
      ensures l.quantity == w.systemQty && (l.item in defaults || l.item in spares)
    {
      if s < |TagOrder| {
        assert l.item in defaults;
      } else {
        assert s == |TagOrder|;
      }
    }
    StepLinesFrom(w.steps, defaults, spares, w.systemQty);
  }

  /** What holds of every line of every step holds of every line of the final selection. */
  lemma StepLinesFrom(steps: seq<seq<Line>>, defaults: seq<Item>, spares: seq<Item>, q: int)
    requires forall s, l :: 0 <= s < |steps| && l in steps[s] ==>
      l.quantity == q && (l.item in defaults || l.item in spares)
    ensures forall l :: l in FinalSelection(steps) ==> l.quantity == q && (l.item in defaults || l.item in spares)
  {
    forall l | l in FinalSelection(steps)
      ensures l.quantity == q && (l.item in defaults || l.item in spares)
    {
      var s :| 0 <= s < |steps| && l in steps[s];
    }
  }

}

=== FILE: pricing.dfy ===
/** The order: chosen rows stamped with a quantity, the de-duplicated union of
    every step's rows, post-hoc quantity edits, extended prices and the total.
 */
module Pricing {
  import opened Cells
  import opened Seqs
  import opened Catalog

  /** A chosen catalog row with its quantity. */
  datatype Line = Line(item: Item, quantity: int)

  /** Gives every chosen row the same quantity. */
  function Stamp(rows: seq<Item>, qty: int): (r: seq<Line>)
    ensures |r| == |rows|
    ensures forall i :: 0 <= i < |r| ==> r[i].item == rows[i] && r[i].quantity == qty
    ensures forall l :: l in r <==> l.item in rows && l.quantity == qty
  {
    var r := seq(|rows|, i requires 0 <= i < |rows| => Line(rows[i], qty));
    assert forall x :: x in rows ==> Line(x, qty) in r by {
      forall x | x in rows ensures Line(x, qty) in r {
        var i :| 0 <= i < |rows| && rows[i] == x;
        assert r[i] == Line(x, qty);
      }
    }
    r
  }

  /** `x` is among the rows some step chose. */
  ghost predicate InSomeStep(steps: seq<seq<Line>>, x: Line) {
    exists s :: 0 <= s < |steps| && x in steps[s]
  }

  /** The accumulated step results, one after another. */
  function Concat(steps: seq<seq<Line>>): (r: seq<Line>)
    ensures forall x :: x in r <==> InSomeStep(steps, x)
    ensures |r| == 0 <==> forall s :: 0 <= s < |steps| ==> |steps[s]| == 0
  {
    if |steps| == 0 then []
    else
      var rest := Concat(steps[1..]);
      assert forall s :: 0 < s < |steps| ==> steps[s] == steps[1..][s - 1];
      assert forall s :: 0 <= s < |steps| - 1 ==> steps[1..][s] == steps[s + 1];
      steps[0] + rest
  }

  /** A later step's rows are stacked after everything accumulated so far,
      each as often as in that step. */
  lemma {:induction false} ConcatSnoc(steps: seq<seq<Line>>, t: seq<Line>)
    ensures Concat(steps + [t]) == Concat(steps) + t
    decreases |steps|
  {
    if |steps| == 0 {
      assert Concat([t][1..]) == [];
    } else {
      assert (steps + [t])[1..] == steps[1..] + [t];
      ConcatSnoc(steps[1..], t);
    }
  }

  /** The final selection: all step results with repeated rows removed, the
      first occurrence of each kept. */
  function FinalSelection(steps: seq<seq<Line>>): (r: seq<Line>)
    ensures NoDup(r)
    ensures forall x :: x in r <==> InSomeStep(steps, x)
    ensures Subseq(r, Concat(steps))
  {
    Dedup(Concat(steps))
  }

  /** A row of the final table: the line, its price coerced to a number, and
      its extended price. */
  datatype PricedLine = PricedLine(item: Item, quantity: int, unitPrice: Option<real>, extended: Option<real>)

  /** The extended price is the numeric unit price times the quantity, and is
      missing when the price is. */
  predicate ExtendedIsPriceTimesQuantity(p: PricedLine) {
    match p.unitPrice
    case Some(u) => p.extended.Some? && p.extended.value == u * p.quantity as real
    case None => p.extended.None?
  }

  function Price(l: Line): (p: PricedLine)
    ensures p.item == l.item && p.quantity == l.quantity
    ensures p.unitPrice == ToNumeric(l.item.usListPrice)
    ensures ExtendedIsPriceTimesQuantity(p)
  {
    var unit := ToNumeric(l.item.usListPrice);
    var extended := if unit.Some? then Some(unit.value * l.quantity as real) else None;
    PricedLine(l.item, l.quantity, unit, extended)
  }

  function PriceAll(lines: seq<Line>): (r: seq<PricedLine>)
    ensures |r| == |lines|
    ensures forall i :: 0 <= i < |r| ==> r[i] == Price(lines[i])
  {
    seq(|lines|, i requires 0 <= i < |lines| => Price(lines[i]))
  }

  /** What a row adds to the total: its extended price, or nothing when the
      price is missing. */
  function Contribution(p: PricedLine): real {
    match p.extended
    case Some(e) => e
    case None => 0.0
  }

  /** The sum of the extended prices, missing ones skipped. */
  function Total(ps: seq<PricedLine>): real {
    if |ps| == 0 then 0.0 else Contribution(ps[0]) + Total(ps[1..])
  }

  lemma {:induction false} TotalAppend(a: seq<PricedLine>, b: seq<PricedLine>)
    ensures Total(a + b) == Total(a) + Total(b)
    decreases |a|
  {
    if |a| > 0 {
      assert (a + b)[1..] == a[1..] + b;
      TotalAppend(a[1..], b);
    } else {
      assert a + b == b;
    }
  }

  /** A row whose price is missing contributes nothing to the total. */
  lemma MissingPriceAddsNothing(a: seq<PricedLine>, p: PricedLine, b: seq<PricedLine>)
    requires p.extended.None?
    ensures Total(a + [p] + b) == Total(a + b)
  {
    TotalAppend(a + [p], b);
    TotalAppend(a, [p]);
    TotalAppend(a, b);
    assert Total([p]) == Contribution(p) + Total([]);
  }

  /** The total does not depend on the order of the rows. */
  lemma {:induction false} TotalPermutation(a: seq<PricedLine>, b: seq<PricedLine>)
    requires multiset(a) == multiset(b)
    ensures Total(a) == Total(b)
    decreases |a|
  {
    if |a| == 0 {
      assert |b| == |multiset(b)| == 0;
    } else {
      assert a[0] in multiset(b);
      var k :| 0 <= k < |b| && b[k] == a[0];
      var rest := b[..k] + b[k + 1..];
      RemoveOne(a, b, k);
      TotalPermutation(a[1..], rest);
      TotalRemove(b, k);
      assert a == [a[0]] + a[1..];
    }
  }

  /** Taking the same row out of two permutations leaves permutations. */
  lemma RemoveOne<T>(a: seq<T>, b: seq<T>, k: nat)
    requires multiset(a) == multiset(b)
    requires 0 < |a| && k < |b| && b[k] == a[0]
    ensures multiset(a[1..]) == multiset(b[..k] + b[k + 1..])
  {
    assert a == [a[0]] + a[1..];
    assert b == b[..k] + [b[k]] + b[k + 1..];
    calc {
      multiset(a[1..]);
      multiset(a) - multiset{a[0]};
      multiset(b) - multiset{b[k]};
      multiset(b[..k]) + multiset(b[k + 1..]);
    }
  }

  /** The total is one row's contribution plus the total of the others. */
  lemma TotalRemove(b: seq<PricedLine>, k: nat)
    requires k < |b|
    ensures Total(b) == Contribution(b[k]) + Total(b[..k] + b[k + 1..])
  {
    assert b == b[..k] + [b[k]] + b[k + 1..];
    TotalAppend(b[..k] + [b[k]], b[k + 1..]);
    TotalAppend(b[..k], [b[k]]);
    TotalAppend(b[..k], b[k + 1..]);
    assert Total([b[k]]) == Contribution(b[k]) + Total([]);
  }


  /** Replacing one row changes the total by exactly that row's difference. */
  lemma TotalUpdate(ps: seq<PricedLine>, k: nat, p: PricedLine)
    requires k < |ps|
    ensures Total(ps[k := p]) == Total(ps) - Contribution(ps[k]) + Contribution(p)
  {
    assert ps == ps[..k] + [ps[k]] + ps[k + 1..];
    assert ps[k := p] == ps[..k] + [p] + ps[k + 1..];
    TotalAppend(ps[..k] + [ps[k]], ps[k + 1..]);
    TotalAppend(ps[..k], [ps[k]]);
    TotalAppend(ps[..k] + [p], ps[k + 1..]);
    TotalAppend(ps[..k], [p]);
    assert Total([p]) == Contribution(p) + Total([]);
    assert Total([ps[k]]) == Contribution(ps[k]) + Total([]);
  }

  /** Quantity edits made in the final table, by row position; each edit
      replaces that row's quantity and nothing else. */
  function ApplyEdits(lines: seq<Line>, edits: map<nat, nat>): (r: seq<Line>)
    ensures |r| == |lines|
    ensures forall i :: 0 <= i < |r| ==> r[i].item == lines[i].item
    ensures forall i :: 0 <= i < |r| && i !in edits ==> r[i] == lines[i]
    ensures forall i :: 0 <= i < |r| && i in edits ==> r[i].quantity == edits[i]
  {
    seq(|lines|, i requires 0 <= i < |lines| =>
      if i in edits then lines[i].(quantity := edits[i]) else lines[i])
  }

  /** The end of the walkthrough: nothing chosen, or the final table and its total. */
  datatype Order = Halted | NoItems | Quote(lines: seq<PricedLine>, total: real)

  /** Aggregation of the step results into the order. */
  function Aggregate(steps: seq<seq<Line>>, edits: map<nat, nat>): (o: Order)
    ensures !o.Halted?
    ensures o.NoItems? <==> forall s :: 0 <= s < |steps| ==> |steps[s]| == 0
    ensures o.Quote? ==> |o.lines| == |FinalSelection(steps)|
    ensures o.Quote? ==> forall i :: 0 <= i < |o.lines| ==>
      && o.lines[i].item == FinalSelection(steps)[i].item
      && o.lines[i].quantity == (if i in edits then edits[i] else FinalSelection(steps)[i].quantity)
    ensures o.Quote? ==> forall i :: 0 <= i < |o.lines| ==>
      && o.lines[i].unitPrice == ToNumeric(o.lines[i].item.usListPrice)
      && ExtendedIsPriceTimesQuantity(o.lines[i])
    ensures o.Quote? ==> o.total == Total(o.lines)
  {
    var all := Concat(steps);
    if |all| == 0 then NoItems
    else
      var final := FinalSelection(steps);
      var edited := ApplyEdits(final, edits);
      var priced := PriceAll(edited);
      assert forall i :: 0 <= i < |priced| ==>
        priced[i].item == final[i].item && priced[i].quantity == edited[i].quantity;
      Quote(priced, Total(priced))
  }

  /** Editing one row's quantity changes that row alone, and the total by
      exactly the change in that row's extended price. */
  lemma EditOneRow(steps: seq<seq<Line>>, edits: map<nat, nat>, k: nat, q: nat)
    requires Aggregate(steps, edits).Quote?
    requires k < |Aggregate(steps, edits).lines|
    ensures Aggregate(steps, edits[k := q]).Quote?
    ensures |Aggregate(steps, edits[k := q]).lines| == |Aggregate(steps, edits).lines|
    ensures forall j :: 0 <= j < |Aggregate(steps, edits).lines| && j != k ==>
      Aggregate(steps, edits[k := q]).lines[j] == Aggregate(steps, edits).lines[j]
    ensures Aggregate(steps, edits[k := q]).lines[k].quantity == q
    ensures Aggregate(steps, edits[k := q]).total
         == Aggregate(steps, edits).total
          - Contribution(Aggregate(steps, edits).lines[k])
          + Contribution(Aggregate(steps, edits[k := q]).lines[k])
  {
    var final := FinalSelection(steps);
    var b := PriceAll(ApplyEdits(final, edits));
    var a := PriceAll(ApplyEdits(final, edits[k := q]));
    assert Aggregate(steps, edits).lines == b;
    assert Aggregate(steps, edits[k := q]).lines == a;
    EditPriced(final, edits, k, q);
    TotalUpdate(b, k, a[k]);
  }

  /** Re-editing row `k` of a priced table replaces that row alone. */
  lemma EditPriced(final: seq<Line>, edits: map<nat, nat>, k: nat, q: nat)
    requires k < |final|
    ensures PriceAll(ApplyEdits(final, edits[k := q]))
         == PriceAll(ApplyEdits(final, edits))[k := PriceAll(ApplyEdits(final, edits[k := q]))[k]]
    ensures PriceAll(ApplyEdits(final, edits[k := q]))[k].quantity == q
  {
  }

  /** Every line of every step is quoted, and when all lines carry one
      quantity no item is quoted twice. */
  lemma AggregateRowsOnce(steps: seq<seq<Line>>, edits: map<nat, nat>, q: int)
    requires Aggregate(steps, edits).Quote?
    requires forall s, l :: 0 <= s < |steps| && l in steps[s] ==> l.quantity == q
    ensures forall s, l :: 0 <= s < |steps| && l in steps[s] ==>
      exists i :: 0 <= i < |Aggregate(steps, edits).lines| && Aggregate(steps, edits).lines[i].item == l.item
    ensures forall i, j :: 0 <= i < j < |Aggregate(steps, edits).lines| ==>
      Aggregate(steps, edits).lines[i].item != Aggregate(steps, edits).lines[j].item
  {
    var o := Aggregate(steps, edits);
    var f := FinalSelection(steps);
    forall s, l | 0 <= s < |steps| && l in steps[s]
      ensures exists i :: 0 <= i < |o.lines| && o.lines[i].item == l.item
    {
      assert InSomeStep(steps, l);
      var i :| 0 <= i < |f| && f[i] == l;
      assert o.lines[i].item == l.item;
    }
    forall i, j | 0 <= i < j < |o.lines|
      ensures o.lines[i].item != o.lines[j].item
    {
      assert f[i] in f && f[j] in f;
      assert f[i] != f[j];
    }
  }

  /** The total does not depend on the order in which the steps' results were
      accumulated (before any edit, which is tied to row positions). */
  lemma TotalIgnoresStepOrder(a: seq<seq<Line>>, b: seq<seq<Line>>)
    requires multiset(a) == multiset(b)
    ensures Aggregate(a, map[]).Quote? <==> Aggregate(b, map[]).Quote?
    ensures Aggregate(a, map[]).Quote? ==> Aggregate(a, map[]).total == Aggregate(b, map[]).total
  {
    StepOrderSameRows(a, b);
    var ca := Concat(a);
    var cb := Concat(b);
    if |ca| > 0 {
      assert ca[0] in cb;
    }
    if |cb| > 0 {
      assert cb[0] in ca;
    }
    var fa := FinalSelection(a);
    var fb := FinalSelection(b);
    assert forall x :: x in fa <==> x in fb;
    assert ApplyEdits(fa, map[]) == fa;
    assert ApplyEdits(fb, map[]) == fb;
    SameRowsSameTotal(fa, fb);
  }

  /** Two duplicate-free selections of the same rows have the same total. */
  lemma SameRowsSameTotal(fa: seq<Line>, fb: seq<Line>)
    requires NoDup(fa) && NoDup(fb)
    requires forall x :: x in fa <==> x in fb
    ensures Total(PriceAll(fa)) == Total(PriceAll(fb))
  {
    var pa := PriceAll(fa);
    var pb := PriceAll(fb);
    PricedDistinct(fa);
    PricedDistinct(fb);
    forall p | p in pa ensures p in pb {
      var i :| 0 <= i < |pa| && pa[i] == p;
      assert fa[i] in fb;
      var j :| 0 <= j < |fb| && fb[j] == fa[i];
      assert pb[j] == p;
    }
    forall p | p in pb ensures p in pa {
      var i :| 0 <= i < |pb| && pb[i] == p;
      assert fb[i] in fa;
      var j :| 0 <= j < |fa| && fa[j] == fb[i];
      assert pa[j] == p;
    }
    DistinctSameMembers(pa, pb);
    TotalPermutation(pa, pb);
  }

  /** Permuting the steps does not change which rows were chosen. */
  lemma StepOrderSameRows(a: seq<seq<Line>>, b: seq<seq<Line>>)
    requires multiset(a) == multiset(b)
    ensures forall x :: InSomeStep(a, x) <==> InSomeStep(b, x)
  {
    forall x | InSomeStep(a, x) ensures InSomeStep(b, x) {
      var s :| 0 <= s < |a| && x in a[s];
      assert a[s] in multiset(b);
      var t :| 0 <= t < |b| && b[t] == a[s];
    }
    forall x | InSomeStep(b, x) ensures InSomeStep(a, x) {
      var s :| 0 <= s < |b| && x in b[s];
      assert b[s] in multiset(a);
      var t :| 0 <= t < |a| && a[t] == b[s];
    }
  }

  /** Pricing keeps distinct lines distinct. */
  lemma PricedDistinct(lines: seq<Line>)
    requires NoDup(lines)
    ensures NoDup(PriceAll(lines))
  {
    var ps := PriceAll(lines);
    forall i, j | 0 <= i < j < |ps| ensures ps[i] != ps[j] {
      assert lines[i] == Line(ps[i].item, ps[i].quantity);
      assert lines[j] == Line(ps[j].item, ps[j].quantity);
    }
  }
}

=== FILE: scenarios.dfy ===
/** Two worked configurations: a CBRS base station and what it does to the
    Software and ASPlus categories. */
module Scenarios {
  import opened Cells
  import opened Seqs
  import opened Catalog
  import opened Selection

  /** A default row of family AS1030 with the given category, spectrum,
      CBRS-only flag and description. */
  function Row(tag: string, spectrum: Option<string>, cbrsOnly: Option<int>, description: string): Item {
    Item(description, Some(1), "", Some(tag), spectrum, cbrsOnly, description,
         Blank, Number(100.0), DefaultConfiguration, "", "AS1030", Some(1))
  }

  /** A single n48 base station: the spectrum is taken without asking, the
      base station is taken without asking, and the CBRS gate opens. */
  lemma SingleN48BaseStation(picked: set<string>, nodes: int)
    requires nodes >= 1
    ensures var bs := Row(BaseStation, Some("n48"), None, "AirVelocity n48");
      var b := ChooseBaseStations([bs], None, picked, nodes);
      b.chosen == [bs] && b.isCbrs && b.systemQty == nodes
  {
    var bs := Row(BaseStation, Some("n48"), None, "AirVelocity n48");
    assert Spectra([bs]) == {Some("n48")};
    assert OneKnownSpectrum([bs]);
    assert OneDescription([bs]);
    CbrsBandSpellings("n48");
  }

  /** With the gate open, an ASPlus category offering one normal and one
      CBRS variant yields the CBRS variant alone, whatever was picked. */
  lemma AsPlusUnderOpenGate(picked: set<string>)
    ensures var std := Row(AsPlus, None, Some(0), "ASPlus Std");
      var cbrs := Row(AsPlus, None, Some(1), "ASPlus CBRS");
      ExclusiveChoice([std, cbrs], picked, true) == [cbrs]
  {
    var std := Row(AsPlus, None, Some(0), "ASPlus Std");
    var cbrs := Row(AsPlus, None, Some(1), "ASPlus CBRS");
    var offered := CbrsRows([std, cbrs]);
    assert offered == [cbrs] by {
      assert [std, cbrs][1..] == [cbrs];
      assert [cbrs][1..] == [];
    }
    assert OneDescription(offered);
  }

  /** With the gate open, a Software category with two normal rows and one
      CBRS-only row, of which the user picks one normal row, yields that row
      and the CBRS-only row. */
  lemma SoftwareUnderOpenGate()
    ensures var n1 := Row(Software, None, Some(0), "Core license");
      var n2 := Row(Software, None, None, "Analytics license");
      var c := Row(Software, None, Some(1), "SAS license");
      AdditiveChoice([n1, n2, c], {"Core license"}, true) == [n1, c]
  {
    var n1 := Row(Software, None, Some(0), "Core license");
    var n2 := Row(Software, None, None, "Analytics license");
    var c := Row(Software, None, Some(1), "SAS license");
    PickOneNormalAddCbrs(n1, n2, c);
  }

  /** The additive policy on two normal rows with different descriptions and
      one CBRS-only row: picking the first description, gate open. */
  lemma PickOneNormalAddCbrs(n1: Item, n2: Item, c: Item)
    requires n1.cbrsOnly != Some(1) && n2.cbrsOnly != Some(1) && c.cbrsOnly == Some(1)
    requires n1.description != n2.description
    ensures AdditiveChoice([n1, n2, c], {n1.description}, true) == [n1, c]
  {
    PickFirstNormal(n1, n2, c);
    OnlyCbrsRow(n1, n2, c);
    AdditiveIsDedupOfUnion([n1, n2, c], {n1.description}, true);
    DedupPair(n1, c);
  }

  lemma PickFirstNormal(n1: Item, n2: Item, c: Item)
    requires n1.cbrsOnly != Some(1) && n2.cbrsOnly != Some(1) && c.cbrsOnly == Some(1)
    requires n1.description != n2.description
    ensures AutoSelect(NormalRows([n1, n2, c]), {n1.description}) == [n1]
  {
    var rows := [n1, n2, c];
    var normal := NormalRows(rows);
    assert n1 in normal && n2 in normal;
    assert !OneDescription(normal);
    assert rows == [n1] + [n2] + [c];
    SingletonBag(AutoSelect(normal, {n1.description}), n1);
  }

  lemma OnlyCbrsRow(n1: Item, n2: Item, c: Item)
    requires n1.cbrsOnly != Some(1) && n2.cbrsOnly != Some(1) && c.cbrsOnly == Some(1)
    ensures CbrsRows([n1, n2, c]) == [c]
  {
    assert [n1, n2, c] == [n1] + [n2] + [c];
    SingletonBag(CbrsRows([n1, n2, c]), c);
  }

  lemma DedupPair(a: Item, b: Item)
    requires a != b
    ensures Dedup([a] + [b]) == [a, b]
  {
    assert [a] + [b] == [a, b];
    assert NoDup([a, b]);
    DedupOfDistinct([a, b]);
  }

  /** A sequence holding `x` once and nothing else is `[x]`. */
  lemma SingletonBag<T>(s: seq<T>, x: T)
    requires forall y :: multiset(s)[y] == if y == x then 1 else 0
    ensures s == [x]
  {
    assert |multiset(s)| == 1 by {
      assert multiset(s) == multiset{x};
    }
    assert s[0] in multiset(s);
  }
}

=== FILE: selection.dfy ===
/** Per-category choice rules: auto-select when a category offers a single
    description, base-station spectrum narrowing, the CBRS gate derived from
    the chosen base stations, and the two policies the gate drives — additive
    (Software, ACP) and exclusive (ASPlus).
 */
module Selection {
  import opened Cells
  import opened Seqs
  import opened Catalog

  /** The rows of one category. */
  function ByTag(rows: seq<Item>, tag: string): (r: seq<Item>)
    ensures forall x :: x in r <==> x in rows && x.tag == Some(tag)
    ensures forall x :: multiset(r)[x] == if x.tag == Some(tag) then multiset(rows)[x] else 0
    ensures Subseq(r, rows)
  {
    var p := (x: Item) => x.tag == Some(tag);
    FilterIsSubseq(rows, p);
    Filter(rows, p)
  }

  // ---------------------------------------------------------------------------
  // Auto-select or choose
  // ---------------------------------------------------------------------------

  /** The distinct descriptions among `rows`. */
  function Descriptions(rows: seq<Item>): set<string> {
    set x | x in rows :: x.description
  }

  /** All rows carry the description of the first one. */
  predicate OneDescription(rows: seq<Item>) {
    |rows| > 0 && forall i :: 0 <= i < |rows| ==> rows[i].description == rows[0].description
  }

  /** Exactly one distinct description means every row shares the first row's. */
  lemma OneDescriptionIff(rows: seq<Item>)
    ensures |Descriptions(rows)| == 1 <==> OneDescription(rows)
  {
    if OneDescription(rows) {
      assert rows[0] in rows;
      assert Descriptions(rows) == {rows[0].description};
    }
    if |Descriptions(rows)| == 1 {
      var d :| d in Descriptions(rows);
      assert Descriptions(rows) == {d} by {
        forall e | e in Descriptions(rows) ensures e == d {
          if e != d {
            assert {d, e} <= Descriptions(rows);
            assert |{d, e}| == 2;
            SubsetCard({d, e}, Descriptions(rows));
          }
        }
      }
      assert |rows| > 0;
      forall i | 0 <= i < |rows| ensures rows[i].description == rows[0].description {
        assert rows[i] in rows && rows[0] in rows;
        assert rows[i].description in Descriptions(rows);
        assert rows[0].description in Descriptions(rows);
      }
    }
  }

  lemma SubsetCard<T>(a: set<T>, b: set<T>)
    requires a <= b
    ensures |a| <= |b|
  {
    assert b == a + (b - a);
  }

  /** Choice among a category's rows. Nothing offered gives nothing; a single
      description is taken without asking; otherwise the rows whose description
      the user picked are kept, in catalog order. */
  function AutoSelect(rows: seq<Item>, picked: set<string>): (r: seq<Item>)
    ensures Subseq(r, rows)
    ensures forall x :: x in r ==> x in rows
    ensures |rows| == 0 ==> r == []
    ensures OneDescription(rows) ==> r == rows
    ensures !OneDescription(rows) ==>
      forall x :: multiset(r)[x] == if x.description in picked then multiset(rows)[x] else 0
  {
    OneDescriptionIff(rows);
    if |rows| == 0 then
      rows
    else if |Descriptions(rows)| == 1 then
      SubseqRefl(rows);
      rows
    else
      var keep := (x: Item) => x.description in picked;
      FilterIsSubseq(rows, keep);
      Filter(rows, keep)
  }

  /** With several descriptions on offer, a row is chosen exactly when the
      user picked its description; the picks can never add a row. */
  lemma AutoSelectPicks(rows: seq<Item>, picked: set<string>, x: Item)
    requires !OneDescription(rows)
    ensures x in AutoSelect(rows, picked) <==> x in rows && x.description in picked
  {
    var r := AutoSelect(rows, picked);
    assert x in r <==> multiset(r)[x] > 0;
    assert x in rows <==> multiset(rows)[x] > 0;
  }

  // ---------------------------------------------------------------------------
  // Base station: spectrum narrowing and the CBRS gate
  // ---------------------------------------------------------------------------

  /** The distinct spectrum cells among `rows` (a blank cell counts once). */
  function Spectra(rows: seq<Item>): set<Option<string>> {
    set x | x in rows :: x.spectrum
  }

  /** The spectrum the base stations are narrowed to: the only one present,
      otherwise the user's choice. */
  function ChosenSpectrum(rows: seq<Item>, pick: Option<string>): Option<string> {
    if |rows| > 0 && |Spectra(rows)| == 1 then rows[0].spectrum else pick
  }

  /** Cell equality as the table compares it: a blank cell equals nothing. */
  predicate SameCell(a: Option<string>, b: Option<string>) {
    a.Some? && a == b
  }

  /** Every row carries the same, non-blank spectrum. */
  predicate OneKnownSpectrum(rows: seq<Item>) {
    && |rows| > 0
    && rows[0].spectrum.Some?
    && forall i :: 0 <= i < |rows| ==> rows[i].spectrum == rows[0].spectrum
  }

  /** The rows whose spectrum cell equals `spectrum`; a blank cell matches nothing. */
  function OfSpectrum(rows: seq<Item>, spectrum: Option<string>): (r: seq<Item>)
    ensures Subseq(r, rows)
    ensures forall i :: 0 <= i < |r| ==> r[i].spectrum.Some? && r[i].spectrum == spectrum
    ensures forall x :: x in r <==> x in rows && SameCell(x.spectrum, spectrum)
    ensures forall x :: multiset(r)[x] == if SameCell(x.spectrum, spectrum) then multiset(rows)[x] else 0
  {
    var p := (x: Item) => SameCell(x.spectrum, spectrum);
    FilterIsSubseq(rows, p);
    Filter(rows, p)
  }

  /** When every row has the spectrum, every row is kept. */
  lemma OfSpectrumKeepsAll(rows: seq<Item>, spectrum: Option<string>)
    requires forall i :: 0 <= i < |rows| ==> SameCell(rows[i].spectrum, spectrum)
    ensures OfSpectrum(rows, spectrum) == rows
  {
    FilterKeepsAll(rows, (x: Item) => SameCell(x.spectrum, spectrum));
  }

  /** The base-station rows of the chosen spectrum. */
  function NarrowSpectrum(rows: seq<Item>, pick: Option<string>): (r: seq<Item>)
    ensures Subseq(r, rows)
    ensures forall i :: 0 <= i < |r| ==> r[i].spectrum.Some? && r[i].spectrum == ChosenSpectrum(rows, pick)
    ensures forall x :: x in r <==> x in rows && SameCell(x.spectrum, ChosenSpectrum(rows, pick))
    ensures forall x :: multiset(r)[x] == if SameCell(x.spectrum, ChosenSpectrum(rows, pick)) then multiset(rows)[x] else 0
    ensures OneKnownSpectrum(rows) ==> r == rows
  {
    if OneKnownSpectrum(rows) then
      OneSpectrumChosen(rows, pick);
      OfSpectrumKeepsAll(rows, ChosenSpectrum(rows, pick));
      OfSpectrum(rows, ChosenSpectrum(rows, pick))
    else
      OfSpectrum(rows, ChosenSpectrum(rows, pick))
  }


  /** When every base station shares one non-blank spectrum, that spectrum is
      the one chosen and every base station matches it. */
  lemma OneSpectrumChosen(rows: seq<Item>, pick: Option<string>)
    requires OneKnownSpectrum(rows)
    ensures forall i :: 0 <= i < |rows| ==> SameCell(rows[i].spectrum, ChosenSpectrum(rows, pick))
  {
    assert rows[0] in rows;
    assert Spectra(rows) == {rows[0].spectrum};
  }

  function LowerChar(c: char): char {
    if 'A' <= c <= 'Z' then (c as int - 'A' as int + 'a' as int) as char else c
  }

  /** Lower-casing of the ASCII letters of a string: no capital letter
      remains, every other character is kept, and a capital becomes the
      letter 32 code points above it. */
  function Lower(s: string): (r: string)
    ensures |r| == |s|
    ensures forall i :: 0 <= i < |r| ==> !('A' <= r[i] <= 'Z')
    ensures forall i :: 0 <= i < |s| && !('A' <= s[i] <= 'Z') ==> r[i] == s[i]
    ensures forall i :: 0 <= i < |s| && 'A' <= s[i] <= 'Z' ==> r[i] as int == s[i] as int + 32
    ensures forall i :: 0 <= i < |s| ==> r[i] == LowerChar(s[i])
  {
    seq(|s|, i requires 0 <= i < |s| => LowerChar(s[i]))
  }

  /** Lower-casing twice is lower-casing once. */
  lemma LowerIdempotent(s: string)
    ensures Lower(Lower(s)) == Lower(s)
  {
  }

  /** A spectrum cell naming a CBRS band: b48 or n48 in any letter case. */
  predicate IsCbrsBand(spectrum: Option<string>) {
    spectrum.Some? && (Lower(spectrum.value) == "b48" || Lower(spectrum.value) == "n48")
  }

  /** The four spellings a CBRS band can have. */
  lemma CbrsBandSpellings(s: string)
    ensures IsCbrsBand(Some(s)) <==> s in {"b48", "B48", "n48", "N48"}
  {
    if |s| == 3 {
      var l := Lower(s);
      assert l == [LowerChar(s[0]), LowerChar(s[1]), LowerChar(s[2])];
      assert s == [s[0], s[1], s[2]];
    } else {
      assert |Lower(s)| != 3;
    }
  }

  /** The CBRS gate, from the lower-cased spectra of the chosen base stations. */
  function CbrsGate(chosen: seq<Item>): (g: bool)
    ensures g <==> exists i :: 0 <= i < |chosen| && IsCbrsBand(chosen[i].spectrum)
    ensures |chosen| == 0 ==> !g
  {
    var lowered := set x | x in chosen && x.spectrum.Some? :: Lower(x.spectrum.value);
    var g := "b48" in lowered || "n48" in lowered;
    assert g ==> exists i :: 0 <= i < |chosen| && IsCbrsBand(chosen[i].spectrum) by {
      if g {
        var x :| x in chosen && x.spectrum.Some? && Lower(x.spectrum.value) in {"b48", "n48"};
        var i :| 0 <= i < |chosen| && chosen[i] == x;
        assert IsCbrsBand(chosen[i].spectrum);
      }
    }
    assert (exists i :: 0 <= i < |chosen| && IsCbrsBand(chosen[i].spectrum)) ==> g by {
      if exists i :: 0 <= i < |chosen| && IsCbrsBand(chosen[i].spectrum) {
        var i :| 0 <= i < |chosen| && IsCbrsBand(chosen[i].spectrum);
        assert chosen[i] in chosen;
        assert Lower(chosen[i].spectrum.value) in lowered;
      }
    }
    g
  }

  /** The outcome of the base-station step: the chosen rows, the CBRS gate and
      the node count every later step stamps on its rows. */
  datatype BaseStationChoice = BaseStationChoice(chosen: seq<Item>, isCbrs: bool, systemQty: int)

  /** Base-station step over the base-station rows of a family. */
  function ChooseBaseStations(rows: seq<Item>, pick: Option<string>, picked: set<string>, nodeCount: int): (b: BaseStationChoice)
    requires nodeCount >= 1
    ensures b.systemQty >= 1
    ensures forall x :: x in b.chosen ==> x in rows
    ensures forall i :: 0 <= i < |b.chosen| ==>
      b.chosen[i].spectrum.Some? && b.chosen[i].spectrum == ChosenSpectrum(rows, pick)
    ensures |b.chosen| > 0 ==> b.systemQty == nodeCount
    ensures |b.chosen| == 0 ==> b.systemQty == 1 && !b.isCbrs
    ensures b.isCbrs <==> exists i :: 0 <= i < |b.chosen| && IsCbrsBand(b.chosen[i].spectrum)
    ensures b.chosen == AutoSelect(NarrowSpectrum(rows, pick), picked)
  {
    if |rows| == 0 then BaseStationChoice([], false, 1)
    else
      var narrowed := NarrowSpectrum(rows, pick);
      var chosen := if |narrowed| == 0 then [] else AutoSelect(narrowed, picked);
      if |chosen| == 0 then BaseStationChoice([], false, 1)
      else BaseStationChoice(chosen, CbrsGate(chosen), nodeCount)
  }

  // ---------------------------------------------------------------------------
  // The two gate policies
  // ---------------------------------------------------------------------------

  /** Rows not flagged CBRS-only (a blank flag is not 1). */
  function NormalRows(rows: seq<Item>): (r: seq<Item>)
    ensures forall x :: multiset(r)[x] == if x.cbrsOnly != Some(1) then multiset(rows)[x] else 0
    ensures forall x :: x in r <==> x in rows && x.cbrsOnly != Some(1)
  {
    Filter(rows, (x: Item) => x.cbrsOnly != Some(1))
  }

  /** Rows flagged CBRS-only. */
  function CbrsRows(rows: seq<Item>): (r: seq<Item>)
    ensures forall x :: multiset(r)[x] == if x.cbrsOnly == Some(1) then multiset(rows)[x] else 0
    ensures forall x :: x in r <==> x in rows && x.cbrsOnly == Some(1)
  {
    Filter(rows, (x: Item) => x.cbrsOnly == Some(1))
  }

  /** The normal and CBRS-only parts of a category are disjoint and together
      hold every row of it, duplicates included. */
  lemma PartitionCovers(rows: seq<Item>)
    ensures multiset(NormalRows(rows)) + multiset(CbrsRows(rows)) == multiset(rows)
    ensures forall x :: !(x in NormalRows(rows) && x in CbrsRows(rows))
  {
    var n := NormalRows(rows);
    var c := CbrsRows(rows);
    assert forall x :: (multiset(n) + multiset(c))[x] == multiset(rows)[x];
  }

  /** Additive policy (Software, ACP): the user's picks among the normal rows,
      plus — when the gate is open — every CBRS-only row, duplicates removed. */
  function AdditiveChoice(rows: seq<Item>, picked: set<string>, isCbrs: bool): (r: seq<Item>)
    ensures NoDup(r)
    ensures forall x :: x in r <==>
      (x in AutoSelect(NormalRows(rows), picked) || (isCbrs && x in CbrsRows(rows)))
    ensures forall x :: x in r ==> x in rows
    ensures !isCbrs ==> forall x :: x in r ==> x.cbrsOnly != Some(1)
    ensures isCbrs ==> forall x :: x in rows && x.cbrsOnly == Some(1) ==> x in r
  {
    var normal := NormalRows(rows);
    var cbrs := CbrsRows(rows);
    var chosenNormal := if |normal| == 0 then [] else AutoSelect(normal, picked);
    var chosenCbrs := if isCbrs && |cbrs| > 0 then cbrs else [];
    assert chosenNormal == AutoSelect(normal, picked);
    assert chosenCbrs == if isCbrs then cbrs else [];
    assert forall x :: x in chosenNormal ==> x in rows && x.cbrsOnly != Some(1);
    assert forall x :: x in chosenCbrs ==> x in rows && x.cbrsOnly == Some(1);
    var both := chosenNormal + chosenCbrs;
    assert forall x :: x in both <==> x in chosenNormal || x in chosenCbrs;
    Dedup(both)
  }

  /** The additive choice is the de-duplicated concatenation of the normal
      picks and, when the gate is open, every CBRS-only row; the emptiness
      guards of the walkthrough change nothing. */
  lemma AdditiveIsDedupOfUnion(rows: seq<Item>, picked: set<string>, isCbrs: bool)
    ensures AdditiveChoice(rows, picked, isCbrs)
         == Dedup(AutoSelect(NormalRows(rows), picked) + (if isCbrs then CbrsRows(rows) else []))
  {
    var normal := NormalRows(rows);
    if |normal| == 0 {
      assert AutoSelect(normal, picked) == [];
    }
  }

  /** Under the additive policy the gate never disturbs the user's own picks:
      the normal rows chosen are exactly the ones picked, gate open or not. */
  lemma AdditiveKeepsNormalPicks(rows: seq<Item>, picked: set<string>, isCbrs: bool, x: Item)
    ensures (x in AdditiveChoice(rows, picked, isCbrs) && x.cbrsOnly != Some(1))
        <==> x in AutoSelect(NormalRows(rows), picked)
  {
    var n := AutoSelect(NormalRows(rows), picked);
    if x in n {
      assert x in NormalRows(rows);
    }
  }

  /** Exclusive policy (ASPlus): the gate decides which part of the category is
      offered at all, and the choice is made within that part alone. */
  function ExclusiveChoice(rows: seq<Item>, picked: set<string>, isCbrs: bool): (r: seq<Item>)
    ensures forall x :: x in r ==> x in rows
    ensures forall x :: x in r ==> (x.cbrsOnly == Some(1) <==> isCbrs)
    ensures Subseq(r, if isCbrs then CbrsRows(rows) else NormalRows(rows))
    ensures OneDescription(if isCbrs then CbrsRows(rows) else NormalRows(rows)) ==>
      r == (if isCbrs then CbrsRows(rows) else NormalRows(rows))
    ensures !OneDescription(if isCbrs then CbrsRows(rows) else NormalRows(rows)) ==>
      forall x :: multiset(r)[x] ==
        if x.description in picked then multiset(if isCbrs then CbrsRows(rows) else NormalRows(rows))[x] else 0
  {
    var offered := if isCbrs then CbrsRows(rows) else NormalRows(rows);
    if |rows| == 0 then
      assert offered == [];
      []
    else if |offered| == 0 then
      []
    else
      var r := AutoSelect(offered, picked);
      assert forall x :: x in r ==> x in offered;
      r
  }
}

=== FILE: seqs.dfy ===
/** Sequence operations the configurator is built from: boolean-mask filtering,
    order-preserving selection (subsequences) and duplicate removal that keeps
    the first occurrence of each element.
 */
module Seqs {

  /** The elements of `s` satisfying `p`, in their original order (a row mask). */
  function Filter<T(!new)>(s: seq<T>, p: T -> bool): (r: seq<T>)
    ensures |r| <= |s|
    ensures forall i :: 0 <= i < |r| ==> p(r[i])
    ensures forall x :: multiset(r)[x] == if p(x) then multiset(s)[x] else 0
    ensures forall x :: x in r <==> x in s && p(x)
  {
    if |s| == 0 then []
    else
      assert s == [s[0]] + s[1..];
      (if p(s[0]) then [s[0]] else []) + Filter(s[1..], p)
  }

  /** `a` can be obtained from `b` by deleting elements, without reordering. */
  ghost predicate Subseq<T>(a: seq<T>, b: seq<T>)
    decreases |b|
  {
    if |b| == 0 then |a| == 0
    else (|a| > 0 && a[0] == b[0] && Subseq(a[1..], b[1..])) || Subseq(a, b[1..])
  }

  /** No element occurs twice. */
  predicate NoDup<T(==)>(s: seq<T>) {
    forall i, j :: 0 <= i < j < |s| ==> s[i] != s[j]
  }

  lemma {:induction false} SubseqRefl<T>(s: seq<T>)
    ensures Subseq(s, s)
    decreases |s|
  {
    if |s| > 0 {
      SubseqRefl(s[1..]);
    }
  }

  /** A mask keeps the rows it passes in their original order. */
  lemma {:induction false} FilterIsSubseq<T(!new)>(s: seq<T>, p: T -> bool)
    ensures Subseq(Filter(s, p), s)
    decreases |s|
  {
    if |s| > 0 {
      var rest := Filter(s[1..], p);
      FilterIsSubseq(s[1..], p);
      if p(s[0]) {
        assert Filter(s, p) == [s[0]] + rest;
        assert ([s[0]] + rest)[1..] == rest;
      } else {
        assert Filter(s, p) == rest;
      }
    }
  }

  /** A mask that keeps every element keeps the sequence as it is. */
  lemma {:induction false} FilterKeepsAll<T(!new)>(s: seq<T>, p: T -> bool)
    requires forall i :: 0 <= i < |s| ==> p(s[i])
    ensures Filter(s, p) == s
    decreases |s|
  {
    if |s| > 0 {
      FilterKeepsAll(s[1..], p);
    }
  }

  /** Duplicate removal scanning left to right; `seen` holds what was already kept. */
  function DedupFrom<T(==)>(s: seq<T>, seen: set<T>): seq<T>
    decreases |s|
  {
    if |s| == 0 then []
    else if s[0] in seen then DedupFrom(s[1..], seen)
    else [s[0]] + DedupFrom(s[1..], seen + {s[0]})
  }

  /** The scan keeps no element twice, keeps exactly the elements not seen
      before, and keeps them in order. */
  lemma {:induction false} DedupFromKeeps<T(!new)>(s: seq<T>, seen: set<T>)
    ensures NoDup(DedupFrom(s, seen))
    ensures forall x :: x in DedupFrom(s, seen) <==> x in s && x !in seen
    ensures Subseq(DedupFrom(s, seen), s)
    decreases |s|
  {
    if |s| > 0 {
      assert s == [s[0]] + s[1..];
      if s[0] in seen {
        DedupFromKeeps(s[1..], seen);
      } else {
        var rest := DedupFrom(s[1..], seen + {s[0]});
        DedupFromKeeps(s[1..], seen + {s[0]});
        assert DedupFrom(s, seen) == [s[0]] + rest;
        assert ([s[0]] + rest)[1..] == rest;
      }
    }
  }

  /** Removes repeated elements, keeping the first occurrence of each. */
  function Dedup<T(==,!new)>(s: seq<T>): (r: seq<T>)
    ensures NoDup(r)
    ensures forall x :: x in r <==> x in s
    ensures Subseq(r, s)
  {
    DedupFromKeeps(s, {});
    DedupFrom(s, {})
  }

  lemma {:induction false} DedupFromSnoc<T(!new)>(s: seq<T>, x: T, seen: set<T>)
    ensures DedupFrom(s + [x], seen)
         == DedupFrom(s, seen) + (if x in s || x in seen then [] else [x])
    decreases |s|
  {
    if |s| == 0 {
      assert s + [x] == [x];
      assert [x][1..] == [];
    } else {
      var t := s + [x];
      assert t[0] == s[0] && t[1..] == s[1..] + [x];
      var seen' := if s[0] in seen then seen else seen + {s[0]};
      DedupFromSnoc(s[1..], x, seen');
      assert x in s <==> x == s[0] || x in s[1..] by {
        assert s == [s[0]] + s[1..];
      }
      if s[0] in seen {
        assert DedupFrom(t, seen) == DedupFrom(t[1..], seen);
        assert DedupFrom(s, seen) == DedupFrom(s[1..], seen);
      } else {
        assert DedupFrom(t, seen) == [s[0]] + DedupFrom(t[1..], seen');
        assert DedupFrom(s, seen) == [s[0]] + DedupFrom(s[1..], seen');
      }
    }
  }

  /** Appending an element keeps it exactly when it has not occurred before:
      the first occurrence of every element is the one that survives. */
  lemma DedupSnoc<T(!new)>(s: seq<T>, x: T)
    ensures Dedup(s + [x]) == Dedup(s) + (if x in s then [] else [x])
  {
    DedupFromSnoc(s, x, {});
  }

  lemma {:induction false} DedupFromDistinct<T(!new)>(s: seq<T>, seen: set<T>)
    requires NoDup(s)
    requires forall i :: 0 <= i < |s| ==> s[i] !in seen
    ensures DedupFrom(s, seen) == s
    decreases |s|
  {
    if |s| > 0 {
      DedupFromDistinct(s[1..], seen + {s[0]});
    }
  }

  /** Removing duplicates from a sequence without any leaves it unchanged. */
  lemma DedupOfDistinct<T(!new)>(s: seq<T>)
    requires NoDup(s)
    ensures Dedup(s) == s
  {
    DedupFromDistinct(s, {});
  }

  /** Duplicate removal is idempotent. */
  lemma DedupIdempotent<T(!new)>(s: seq<T>)
    ensures Dedup(Dedup(s)) == Dedup(s)
  {
    DedupOfDistinct(Dedup(s));
  }

  /** In a sequence without duplicates every member occurs exactly once. */
  lemma {:induction false} DistinctMultiset<T>(s: seq<T>)
    requires NoDup(s)
    ensures forall x :: multiset(s)[x] == if x in s then 1 else 0
    decreases |s|
  {
    if |s| > 0 {
      assert s == [s[0]] + s[1..];
      DistinctMultiset(s[1..]);
    }
  }

  /** Two duplicate-free sequences with the same members are permutations of each other. */
  lemma DistinctSameMembers<T>(a: seq<T>, b: seq<T>)
    requires NoDup(a) && NoDup(b)
    requires forall x :: x in a <==> x in b
    ensures multiset(a) == multiset(b)
  {
    DistinctMultiset(a);
    DistinctMultiset(b);
    assert forall x :: multiset(a)[x] == multiset(b)[x];
  }
}
